=== FILE: README.md ===
# Conductor join/leave lifecycle of Ironic, in Dafny

This project models how an Ironic conductor joins and leaves the fleet, and
proves properties of that model. The model is made of three cooperating
pieces.

- **The RPC service** (`RPCService`). `start` runs `prepare_host`, builds
  and starts the RPC server for the configured transport, installs the
  SIGUSR1 handler, runs `init_host` and publishes the manager as the global
  manager. When `prepare_host`, the server's start or `init_host` raises,
  it records the failure text and re-raises. `wait_for_start` turns the
  service's flags into "ready" or "exit with the failure text". `stop`
  calls `del_host` without clearing reservations, sleeps out the hash-ring
  reset interval and stops the server. The code then enters a drain loop
  that only sleeps, forever. `Stop` models the drain the service's tests
  require: poll `has_reserved` once a second until no lock is held, then
  clear the global manager. `StopAsWritten` models what the code does (see
  "Findings").
- **The conductor manager** (`BaseConductorManager`). It covers the
  `_started`/`_shutdown` guards of `init_host` and `del_host`, and
  `prepare_host` dropping this host's stale locks. It also covers
  `has_reserved`, the hardware-interface rows registered at start-up,
  `iter_nodes` and the worker-bounded sweep of `_fail_if_in_state`.
- **The node table's reservation lock**, as the database tests pin it down.
  This covers reserve and release, the `NodeLocked`, `NodeNotLocked` and
  `NodeNotFound` errors, the `reserved` and `reserved_by_any_of` filters,
  and the uniqueness of uuid, name and instance_uuid.

Everything is a value. The service and the manager are datatypes, and each
operation is a function that returns the new state. It also returns what
the operation raised and the ordered trace of its externally visible
steps. Those steps are the calls on the transport, the manager and the
clock.

The modules are:

- `Wrappers`
- `NodeTable` and `NodeTableProperties`
- `HardwareInterfaces`
- `NodeIteration`
- `ConductorManager` and `ConductorManagerProperties`
- `StopTiming`
- `RpcService` and `RpcServiceScenarios`

The last of these restates the service's unit tests as lemmas over the
model.

Timestamps are integer microseconds. The hash-ring sleep is Python's
`timedelta.seconds` of the remaining time: whole seconds, wrapping modulo
one day.

In the code:

- The RPC server is started before `init_host`.
- Exceptions from `del_host` and from stopping the server are logged and
  swallowed by `stop`.
- The server is stopped before the reservation drain.

## Model

| member | source | states |
|---|---|---|
| NodeTable.Find | ironic/tests/unit/db/test_nodes.py:961-968 | a node can be designated by id or by uuid; the row found matches the reference, and none is found only when no row matches |
| NodeTable.Get | ironic/tests/unit/db/test_nodes.py:627-644 | lookup fails with NodeNotFound exactly when no row matches the reference, otherwise returns a matching row |
| NodeTable.Create | ironic/tests/unit/db/test_nodes.py:48-66 | creation fails exactly when the new node shares a uuid, a name or an instance with an existing one, with DuplicateName, InstanceAssociated or NodeAlreadyExists; on success the node gets the next id and the table stays valid |
| NodeTable.Update | ironic/tests/unit/db/test_nodes.py:809-855 | the uuid can never be changed (InvalidParameterValue); a missing node is NodeNotFound; a name or instance held by another node is refused; otherwise only that row's column changes and the table stays valid |
| NodeTable.Destroy | ironic/tests/unit/db/test_nodes.py:627-644 | destroying removes exactly the designated row; a missing node is NodeNotFound |
| NodeTable.Reserve | ironic/tests/unit/db/test_nodes.py:887-904 | a free node takes the tag as its reservation; a reserved node is refused with NodeLocked naming the holder; a missing node is NodeNotFound |
| NodeTable.Release | ironic/tests/unit/db/test_nodes.py:906-916 | the holder's release clears the reservation; an unlocked node is NodeNotLocked, another holder's lock is NodeLocked naming that holder, a missing node is NodeNotFound |
| NodeTable.ClearReservationsFor | ironic/conductor/base_manager.py:88-89 | afterwards no row is held by the host; rows it held lose only their reservation; every other row is untouched |
| NodeTable.ClearTargetPowerStateFor | ironic/conductor/base_manager.py:86-87 | rows the host holds lose only their target power state; every other row is untouched |
| NodeTable.Query | ironic/tests/unit/db/test_nodes.py:136-223 | the keys id, uuid, associated, reserved, reserved_by_any_of, maintenance, provision_state, driver, conductor_group, fault and resource_class are recognised; a query fails exactly when some other key is present, naming every such key; otherwise it returns exactly the rows every filter admits |
| NodeTableProperties.ReserveReleaseRoundTrip | ironic/tests/unit/db/test_nodes.py:906-916 | reserving a node and releasing it with the same tag gives back the original table |
| NodeTableProperties.SecondReserveRefused | ironic/tests/unit/db/test_nodes.py:918-959 | while one tag holds a node a second reservation is NodeLocked, and the error names the holder |
| NodeTableProperties.NonHolderCannotRelease | ironic/tests/unit/db/test_nodes.py:918-934 | a tag that does not hold the lock cannot release it; the error names the holder |
| NodeTableProperties.ReleaseThenOtherReserves | ironic/tests/unit/db/test_nodes.py:936-949 | after the holder releases, a different tag can reserve the node and becomes its reservation |
| NodeTableProperties.ReleaseUnlockedRefused | ironic/tests/unit/db/test_nodes.py:979-986 | releasing a node nobody holds is NodeNotLocked |
| NodeTableProperties.DestroyedNodeNotFound | ironic/tests/unit/db/test_nodes.py:961-977 | after destroy, get, reserve, release and destroy report NodeNotFound through every reference that designated the node, by id or by uuid, whichever one destroyed it |
| NodeTableProperties.DestroyByIdThenUuid | ironic/tests/unit/db/test_nodes.py:961-977 | destroying by id succeeds, and reserving and releasing by that id or by the node's uuid then report NodeNotFound |
| NodeTableProperties.ReservedFiltersPartition | ironic/tests/unit/db/test_nodes.py:168-173 | `reserved: true` and `reserved: false` select disjoint sets that together cover the table; the first is exactly the reserved rows |
| NodeTableProperties.AssociatedFiltersPartition | ironic/tests/unit/db/test_nodes.py:161-165 | `associated: true` and `associated: false` select disjoint sets that together cover the table; the first is exactly the rows bound to an instance |
| NodeTableProperties.IdAndUuidFiltersSelectOne | ironic/tests/unit/db/test_nodes.py:205-209 | an `id` filter selects exactly the node with that id and a `uuid` filter exactly the node with that uuid, or nothing when there is none |
| NodeTableProperties.ReservedByAnyOfUnion | ironic/tests/unit/db/test_nodes.py:199-203 | `reserved_by_any_of` over a concatenated host list selects the union of what each list selects |
| NodeTableProperties.UnknownFilterNamed | ironic/tests/unit/db/test_nodes.py:211-223 | an unrecognised key fails the query and is named in the error, whatever recognised filters, such as `id`, accompany it |
| NodeTableProperties.ClearReservationsIdempotent | ironic/conductor/base_manager.py:309-311 | clearing a host's reservations twice is the same as once |
| NodeTableProperties.CreateSameUuidRefused | ironic/tests/unit/db/test_nodes.py:48-51 | a second node with an existing uuid is NodeAlreadyExists |
| NodeTableProperties.CreateSameInstanceRefused | ironic/tests/unit/db/test_nodes.py:53-60 | a second node bound to an already bound instance is InstanceAssociated |
| NodeTableProperties.CreateSameNameRefused | ironic/tests/unit/db/test_nodes.py:62-66 | a second node with an existing name is DuplicateName |
| NodeTableProperties.AssociateDisassociate | ironic/tests/unit/db/test_nodes.py:821-827 | binding a free node to an unused instance succeeds, and clearing it again gives back the original table |
| NodeTableProperties.InstanceClashRefused | ironic/tests/unit/db/test_nodes.py:829-837 | binding a node to an instance another node holds is InstanceAssociated |
| NodeTableProperties.NameClashRefused | ironic/tests/unit/db/test_nodes.py:848-855 | renaming a node to a name another node carries is DuplicateName |
| HardwareInterfaces.RowsForSpecsMembership | ironic/conductor/base_manager.py:373-383 | a row belongs to a hardware type's rows exactly when it is the row of some enabled name of some interface type |
| HardwareInterfaces.InterfaceRowsMembership | ironic/conductor/base_manager.py:370-384 | a row is registered exactly when it is the row of some (hardware type, interface type, enabled name) |
| HardwareInterfaces.RowsForSpecsLength | ironic/conductor/base_manager.py:373-383 | a hardware type yields as many rows as its interface types have enabled names |
| HardwareInterfaces.InterfaceRowsLength | ironic/conductor/base_manager.py:370-384 | exactly one row is registered per enabled name across all hardware types |
| HardwareInterfaces.DefaultFlagIsComputedDefault | ironic/conductor/base_manager.py:374-382 | every registered row's default flag is true exactly when its name is its interface type's computed default |
| NodeIteration.MappedRows | ironic/conductor/base_manager.py:416-420 | the rows handed out are exactly the query rows mapped to this conductor |
| NodeIteration.MappedRowsInOrder | ironic/conductor/base_manager.py:416-420 | the rows handed out keep the query's order |
| NodeIteration.IterNodes | ironic/conductor/base_manager.py:397-420 | only mapped rows are yielded, in query order, and none after the shutdown flag is seen |
| NodeIteration.SingleStateAsSet | ironic/conductor/base_manager.py:501-502 | a single provision state selects exactly the nodes the set holding only it selects: acquired, with matching maintenance, in that state |
| NodeIteration.SweepIsBoundedPrefix | ironic/conductor/base_manager.py:509-544 | the sweep fails the first max(1, max_workers − count) stuck nodes met before the first node it had no worker for |
| NodeIteration.FailIfInState | ironic/conductor/base_manager.py:465-544 | every failed node came from the iteration and was stuck; locked, vanished or mismatched nodes are not counted; at most max(1, periodic_max_workers) nodes are failed |
| NodeIteration.SweepLength | ironic/conductor/base_manager.py:542-544 | the sweep never fails more than max(1, periodic_max_workers) nodes |
| ConductorManager.NewManager | ironic/conductor/base_manager.py:53-63 | a new manager is not started, has no shutdown flag, no database client and no registration; an empty host falls back to the configured one |
| ConductorManagerProperties.FreshManager | ironic/conductor/base_manager.py:53-63 | del_host on a new manager does nothing; init_host on it succeeds exactly when the driver factory loads, a hardware type is enabled, the conductor and its interfaces register and a keepalive worker is free, and keeps the host the constructor chose |
| ConductorManager.HasReserved | ironic/conductor/base_manager.py:339-346 | true exactly when some node's reservation is this host |
| ConductorManager.PrepareHost | ironic/conductor/base_manager.py:65-89 | the database client is created; afterwards this host holds no lock; rows it held lose their reservation and target power state; other rows and all other manager state are unchanged |
| ConductorManager.DelHost | ironic/conductor/base_manager.py:301-337 | a manager never registered is left alone; otherwise it is marked shut down and is no longer started unless the teardown raised, in which case the exception propagates; asked to deregister, it goes offline and its interface rows are dropped, otherwise the rows stay; asked to clear reservations, its database becomes exactly the one with this host's locks dropped and it holds none |
| ConductorManager.InitHost | ironic/conductor/base_manager.py:91-224 | a running manager raises RuntimeError and changes nothing; otherwise it succeeds exactly when the driver factory loads, some hardware type is enabled, the conductor record and its interfaces register and a keepalive worker is free; success leaves it started, not shut down, registered, online with the computed interface rows; a factory error while loading, NoDriversLoaded or a conductor registration error propagates and leaves it as it was apart from the cleared shutdown flag and the database client; an interface error of one of the five classes del_host is run for, or no keepalive worker, leaves it shut down, offline, without interface rows and with exactly this host's locks dropped, and re-raises that error unless the teardown inside that del_host raised, whose exception then propagates; any other interface error propagates and leaves it registered, online, not shut down and its table untouched |
| ConductorManagerProperties.InitTwiceRefused | ironic/conductor/base_manager.py:106-108 | init_host on a manager that init_host already started is refused with RuntimeError and changes nothing |
| ConductorManagerProperties.InitDelInit | ironic/conductor/base_manager.py:301-337 | del_host after a successful init_host stops the manager and marks it shut down, and init_host can then start it again |
| ConductorManagerProperties.FailedTeardownBlocksRestart | ironic/conductor/base_manager.py:329-337 | if del_host's teardown raises, the manager stays started and a later init_host is refused |
| ConductorManagerProperties.FailedInitCanRetry | ironic/conductor/base_manager.py:171-211 | an init_host that raised leaves the manager stopped, so a retry in a good environment starts it |
| ConductorManagerProperties.DelHostKeepsLocks | ironic/conductor/base_manager.py:309-311 | del_host without clearing reservations leaves has_reserved unchanged |
| ConductorManagerProperties.PrepareHostOnlyDropsOwnLocks | ironic/conductor/base_manager.py:84-89 | prepare_host leaves every other host's locks exactly where they were |
| StopTiming.TimedeltaSeconds | ironic/common/rpc_service.py:114 | the seconds of a delta are within one day, and the delta is some whole number of days plus that many seconds plus under one second; for a delta under a day they are its whole-second part |
| StopTiming.TimedeltaSecondsUnique | ironic/common/rpc_service.py:114 | any split of a delta into whole days and a seconds part within one day has `.seconds` as that part, so the characterisation fixes the value |
| StopTiming.HashRingWait | ironic/common/rpc_service.py:112-117 | stop sleeps exactly when the clock after del_host is before the start plus the interval, and for less than a day |
| StopTiming.WaitCompletesInterval | ironic/common/rpc_service.py:99-117 | for less than a day left, elapsed time plus the sleep never overshoots the interval and falls short by under one second |
| StopTiming.NoWaitAtExactInterval | ironic/common/rpc_service.py:112-113 | a del_host that took exactly the interval leaves nothing to sleep |
| StopTiming.WaitWrapsAtOneDay | ironic/common/rpc_service.py:114 | with a one-day interval and an instant del_host the sleep is zero, because `.seconds` drops whole days |
| StopTiming.WaitDropsWholeDays | ironic/common/rpc_service.py:112-117 | whatever remains of the interval, the sleep is its whole seconds with some non-negative number of whole days dropped |
| StopTiming.WaitPastOneDay | ironic/common/rpc_service.py:112-117 | an interval of one day and k seconds with an instant del_host sleeps k seconds |
| RpcService.NewService | ironic/common/rpc_service.py:40-50 | a new service has no server, will deregister on stop, has no failure and is not started; its manager is a new manager for the host and topic |
| RpcServiceScenarios.FreshServiceStarts | ironic/common/rpc_service.py:40-90 | a new service in an environment where every step succeeds starts exactly when a hardware type is enabled; then it publishes its manager with those types' interface rows; otherwise it raises NoDriversLoaded for its host and leaves the global manager alone |
| RpcService.HandleSignal | ironic/common/rpc_service.py:146-150 | SIGUSR1 turns off deregistration and changes nothing else |
| RpcService.FailureText | ironic/common/rpc_service.py:66 | the failure text is the exception's class name, then ": ", then its message |
| RpcService.FailureTextDetermines | ironic/common/rpc_service.py:66 | for class names without a colon, equal failure texts come from the same exception: the text splits back into class name and message |
| RpcService.Start | ironic/common/rpc_service.py:59-90 | start returns exactly when the service ends up started; then there is no failure, the manager is published, started, registered and online, and it holds no lock; the manager afterwards is the one prepare_host, then init_host (unless the server failed to start), made of it, or unchanged when prepare_host raised; a raised start records the failure text and leaves the global manager alone; started and failure are never both set |
| RpcService.StartSucceedsIff | ironic/common/rpc_service.py:63-90 | start returns exactly when prepare_host returns, the server (if any) starts, the manager is not running, the driver factory loads, a hardware type is enabled, the conductor and its interfaces register and the keepalive gets a worker |
| RpcService.StartServerChoice | ironic/common/rpc_service.py:76-83 | a prepare_host that raises leaves no server; otherwise the server is absent iff the transport is "none", a WSGI service for "json-rpc", and otherwise a messaging server on Target(topic, host) whose only endpoint is the manager |
| RpcService.StartFailures | ironic/common/rpc_service.py:63-86 | a prepare_host that raises ends start before any server is built, raises its error and leaves the manager unchanged; a server that fails to start ends start before init_host and raises its error |
| RpcService.StartInitFailures | ironic/conductor/base_manager.py:106-211 | once init_host runs, a raised start raises RuntimeError for a running manager, the driver factory's loading error, NoDriversLoaded with no hardware types, the conductor registration error, the interface registration error, or NoFreeConductorWorker when the keepalive gets no worker; where init_host cleans up with del_host, an exception from its teardown replaces the last two |
| RpcService.StartPreparesFirst | ironic/common/rpc_service.py:72-77 | start fetches the admin context, builds the serializer and runs prepare_host first, before any server is built |
| RpcService.StartPreparesOnce | ironic/common/rpc_service.py:72-76 | the admin context is fetched once, the serializer is built once and prepare_host runs once |
| RpcService.StartServerBeforeInit | ironic/common/rpc_service.py:85-89 | the server is started before init_host |
| RpcService.StartInitsOnce | ironic/common/rpc_service.py:76-89 | init_host runs once, right after the signal handler is installed, unless prepare_host raised or the server failed to start, in which case it never runs |
| RpcService.StartBuildsTargetOnce | ironic/common/rpc_service.py:76-83 | unless prepare_host raised, a messaging transport builds Target(topic, host) once and the server on it with the manager as its only endpoint once; after a raising prepare_host no server is built |
| RpcService.StartPublishesLast | ironic/common/rpc_service.py:89-90 | the manager is published exactly by a start that completes, as its last step |
| RpcService.NoTransportBuildsNoServer | ironic/common/rpc_service.py:77-86 | with the "none" transport no server is built or started |
| RpcService.WaitForStart | ironic/common/rpc_service.py:52-57 | wait_for_start returns at the first started snapshot without failure, exits with the text at the first failed one, and keeps polling while neither |
| RpcService.Drain | ironic/tests/unit/common/test_rpc_service.py:165-181 | the drain alternates queries and one-second sleeps, and ends exactly when an answer says no lock is held |
| RpcService.DrainQueries | ironic/tests/unit/common/test_rpc_service.py:172-181 | a drain that ends asks once per answer that held a lock plus once more, and sleeps once per held answer |
| RpcService.DrainEndsAtFirstNo | ironic/tests/unit/common/test_rpc_service.py:172-181 | the drain ends within the answers exactly when one of them says no lock is held |
| RpcService.Stop | ironic/common/rpc_service.py:97-144 | stop calls del_host first, with the service's deregister flag and without clearing reservations; the database is not touched; the hash-ring sleep comes right after; it finishes and clears the global manager exactly when some poll says no lock is held |
| RpcService.StopServerBeforeDrain | ironic/common/rpc_service.py:119-142 | the server is stopped before the drain asks has_reserved |
| RpcService.StopQueryCount | ironic/tests/unit/common/test_rpc_service.py:165-181 | stop asks has_reserved once per answer that held a lock plus the final one, or once per answer if none cleared |
| RpcService.StopClearsGlobalOnlyWhenDrained | ironic/common/rpc_service.py:139-144 | the global manager is cleared exactly when the drain ends |
| RpcService.StopIgnoresDelHostFailure | ironic/common/rpc_service.py:103-108 | an exception from del_host changes nothing about the rest of stop |
| RpcService.StopIgnoresServerStopFailure | ironic/common/rpc_service.py:119-125 | an exception from stopping the server skips its wait but not the drain |
| RpcService.LiteralDrain | ironic/common/rpc_service.py:139-142 | the loop as written only sleeps one second per iteration |
| RpcService.StopAsWritten | ironic/common/rpc_service.py:97-144 | stop as written never asks has_reserved, never clears the global manager and never finishes |
| RpcServiceScenarios.WaitAfterStart | ironic/common/rpc_service.py:52-69 | after a start that returned, wait_for_start is ready at once; after a raised one it exits with the failure text |
| RpcServiceScenarios.StartWhileRunningFails | ironic/conductor/base_manager.py:106-108 | starting a service whose manager runs raises RuntimeError, records it and leaves the global manager alone |
| RpcServiceScenarios.StartThenStop | ironic/common/rpc_service.py:59-144 | a completed start publishes the manager; a stop whose drain ends clears it, stops the manager, and stops the server before draining |
| RpcServiceScenarios.StopAfterStart | ironic/common/rpc_service.py:103-105 | stopping a registered manager with a clean teardown leaves it stopped and shut down |
| RpcServiceScenarios.SignalKeepsRegistration | ironic/common/rpc_service.py:146-150 | after SIGUSR1 stop calls del_host without deregistering and the record stays online; without it the record goes offline |
| RpcServiceScenarios.TestStart | ironic/tests/unit/common/test_rpc_service.py:48-65 | a start over a messaging transport returns, is started without failure, publishes the manager, and wait_for_start returns at once |
| RpcServiceScenarios.TestStartCalls | ironic/tests/unit/common/test_rpc_service.py:54-61 | that start fetches the admin context once, builds the target for "fake_host" once and runs the serializer, prepare_host and init_host once each |
| RpcServiceScenarios.TestStartNoRpc | ironic/tests/unit/common/test_rpc_service.py:73-87 | with transport "none" there is no server, no target or server build, one admin context, serializer, prepare_host and init_host, and the manager is published |
| RpcServiceScenarios.TestStartFailure | ironic/tests/unit/common/test_rpc_service.py:95-113 | init_host raising "boom" (at the driver factory, before registration) propagates, leaves the global manager unset and the service not started, records the text, and wait_for_start exits |
| RpcServiceScenarios.TestStartFailureCalls | ironic/tests/unit/common/test_rpc_service.py:103-110 | that failed start fetched the admin context, built the serializer, ran prepare_host, built the target for "fake_host" and ran init_host once each, and never published the manager |
| RpcServiceScenarios.BoomText | ironic/tests/unit/common/test_rpc_service.py:112 | the recorded failure text of RuntimeError("boom") holds "boom" |
| RpcServiceScenarios.TestStopInstant | ironic/tests/unit/common/test_rpc_service.py:117-129 | a del_host taking no time gives a 15-second sleep and one query |
| RpcServiceScenarios.TestStop | ironic/tests/unit/common/test_rpc_service.py:133-145 | a del_host taking 5 seconds gives a 10-second sleep and one query |
| RpcServiceScenarios.TestStopSlow | ironic/tests/unit/common/test_rpc_service.py:149-161 | a del_host taking 16 seconds gives no sleep and one query |
| RpcServiceScenarios.TestStopHasReserved | ironic/tests/unit/common/test_rpc_service.py:165-181 | locks held on two polls give sleeps of 10, 1 and 1 seconds and three queries |
| RpcServiceScenarios.HasReservedStopTrace | ironic/tests/unit/common/test_rpc_service.py:174-181 | the full trace of that stop, step by step |
| RpcServiceScenarios.LiteralDrainNeverEnds | ironic/common/rpc_service.py:139-144 | with no lock held, stop as written still never queries or finishes, while the drain the tests require ends after one query and clears the global manager |

## Left out

- The transport layer is left out: oslo.messaging `Target` and `get_server`, the json-rpc WSGI service and the object serializer. They appear only as trace events and as the server value built. Starting and stopping a server is an outcome parameter.
- Signal registration, `sys.exit`, logging and `super().start()/stop()` of the oslo service are left out. The handler is modelled as `HandleSignal`; the exit is the `Exit` result of `WaitForStart`.
- The 0.1-second polling of `wait_for_start` is modelled only through the sequence of states it observes. Real time is not modelled.
- The wall clock is not modelled. The two `utcnow` readings of `stop` are parameters in integer microseconds.
- Concurrency in the manager is left out: the executor, `_spawn_worker`, the periodic-task worker, the keepalive thread and its event, and eventlet yields. The keepalive spawn is a boolean "a worker was free"; the callback spawn in `_fail_if_in_state` is one per node.
- Hash-ring placement (`_mapped_to_this_conductor`) is a predicate parameter, and `_use_groups` is not modelled.
- The driver factory, mDNS, console start, allocation resume, notifications and the state machine's `process_event` are not modelled. The factory's enabled hardware types and interfaces and their defaults are data. Its two errors are data too: the error raised while loading the hardware types (`driverLoad`) and the one raised while interfaces are registered (`interfaceFault`).
- RpcService.Start: fetching the admin context, building the serializer and building the transport server (rpc_service.py:72-83) never raise in the model. In the code a raise there is recorded and re-raised like any other, so `Start` does not promise anything for it.
- RpcService.Start: a `prepare_host` that raises leaves the manager unchanged in the model. Any part of its work done before the raise is not modelled.
- ConductorManager.InitHost: the stuck-state sweep that `init_host` runs through `_fail_transient_state` is not part of its model. The sweep logic itself is modelled separately as `NodeIteration.FailIfInState`.
- ConductorManager.InitHost: `ConductorAlreadyRegistered` on registration is treated as an update of the record. The retry it triggers has no observable effect in the model.
- ConductorManager.DelHost: `ConductorNotFound` from unregister is ignored, as in the code. Closing the zeroconf handle is not modelled.
- The conductor record of `ironic/objects/conductor.py` is modelled only through the manager's fields. Registration and deregistration are its `registered` and `online` fields, and the hardware-interface rows that `unregister` drops first (objects/conductor.py:155-158) are its `interfaces` field.
- ConductorManager.InitHost: the five exception classes that make `init_host` run `del_host` are matched by class name. A subclass of one of them, which Python's `except` also catches, is modelled only when it carries the name of the class it derives from.
- ConductorManager.InitHost: an interface error is assumed to arrive after the old rows were dropped. An error raised by dropping them is not told apart.
- `ironic/api/controllers/v1/conductor.py` is not part of this model.
- The database implementation is not part of this model. The node table follows the contract its tests pin down. Where they leave a choice, the model takes one:
  - a reservation on a node that is already reserved (even by the same tag) is refused;
  - a create that clashes on several columns reports the name first, then the instance, then the uuid.
- NodeTable.Query: only the filter keys listed in its row are modelled. The database accepts further keys, such as `chassis_uuid`, `provisioned_before` or `description_contains`. A query with one of those cannot be written in the model, since `Unknown` stands only for keys outside the modelled set.
- SQL-specific behaviour of the node table is not modelled: tags, traits, detached fields, cascading deletes, time-based and description filters, sorting and limits. `has_reserved`'s `limit=1` is modelled as a non-emptiness test.
- Exception messages are modelled only where the tests look at them. These are the failure text of `start` and the holder named by `NodeLocked`. Other messages are placeholders.
- NodeIteration.IterNodes: the shutdown flag, which another thread sets, is modelled as the number of rows after which it is first seen set.
- RpcService.LiteralDrain: the literal `while True` loop cannot be written without `decreases *`. It is modelled as the first `fuel` iterations, so the model states what any finite prefix of the loop does. That the loop runs forever follows from this holding for every `fuel`.

## Findings

| source | as written | input that shows it | evidently intended | confidence | as-written member | corrected member |
|---|---|---|---|---|---|---|
| ironic/common/rpc_service.py:139-144 | the reservation drain is `while True: sleep(1)`; it never asks `has_reserved` and never exits, so clearing the global manager is unreachable | a stop where `has_reserved` is false at once: the loop still sleeps forever and the global manager is never cleared | poll `has_reserved`, sleep one second while it holds, then clear the global manager (the unit tests expect exactly one query when no lock is held) | not executed | RpcService.StopAsWritten, RpcServiceScenarios.LiteralDrainNeverEnds | RpcService.Stop |

=== FILE: conductor_manager.dfy ===
/**
 * The conductor manager's side of the join/leave protocol: `prepare_host`
 * (drop stale locks), `init_host` (guarded start, registration, interface
 * rows, keepalive), `del_host` (shutdown flag, optional lock release,
 * optional deregistration) and `has_reserved` (the query the reservation
 * drain polls).
 *
 * The manager is a value; each operation returns the manager after the
 * call together with the exception it raised, if any.
 */
module ConductorManager {
  import opened Wrappers
  import opened NodeTable
  import HardwareInterfaces

  datatype Manager = Manager(
    host: Host,
    topic: string,
    started: bool,
      /** `_shutdown`: None until `init_host` first runs. */
    shutdown: Option<bool>,
      /** Whether the database client has been created yet. */
    hasDbapi: bool,
      /** Whether a conductor record was ever registered (the `conductor` attribute exists). */
    registered: bool,
      /** Whether this conductor's record is currently registered in the cluster. */
    online: bool,
      /** The hardware-interface rows registered for this conductor. */
    interfaces: seq<HardwareInterfaces.InterfaceRow>,
      /** The node table, as this conductor's database client sees it. */
    db: Table)

  /** A manager after a call, and what the call raised. */
  datatype Step = Step(m: Manager, raised: Option<Exc>)

  const AlreadyRunning: Exc := Exc("RuntimeError", "Attempt to start an already running conductor manager")

  function NoDriversLoaded(host: Host): Exc {
    Exc("NoDriversLoaded", "Conductor " + host + " cannot be started because no drivers were loaded.")
  }

  const NoFreeConductorWorker: Exc :=
    Exc("NoFreeConductorWorker", "Requested action cannot be performed due to lack of free conductor workers.")

  /** A new manager; an empty host name falls back to the configured one. */
  function NewManager(host: Host, confHost: Host, topic: string, db: Table): (m: Manager)
    ensures m.host == if host == "" then confHost else host
    ensures !m.started && m.shutdown.None? && !m.hasDbapi && !m.registered && !m.online
    ensures m.db == db && m.topic == topic
  {
    Manager(if host == "" then confHost else host, topic, false, None, false, false, false, [], db)
  }

  /** The reservation lock on `k` is held by this host. */
  predicate HeldBy(t: Table, k: NodeId, host: Host)
  {
    k in t.rows && t.rows[k].reservation == Some(host)
  }

  /**
   * Whether this host still holds a lock on some node, asked as a
   * `reserved_by_any_of: [host]` query limited to one row.
   */
  function HasReserved(m: Manager): (r: bool)
    ensures r <==> exists k :: HeldBy(m.db, k, m.host)
  {
    var fs := [ReservedByAnyOf([m.host])];
    match Query(m.db, fs)
    case Success(ids) =>
      assert forall k :: k in ids <==> HeldBy(m.db, k, m.host) by {
        forall k ensures k in ids <==> HeldBy(m.db, k, m.host) {
          if k in m.db.rows {
            var n := m.db.rows[k];
            assert (forall i :: 0 <= i < |fs| ==> Admits(fs[i], n)) <==> Admits(fs[0], n);
            assert n.reservation.Some? && n.reservation.value in [m.host] <==> n.reservation == Some(m.host);
          }
        }
      }
      ids != {}
    case Failure(_) => assert false; false
  }

  /**
   * `prepare_host`: create the database client if missing, then clear the
   * pending power state of, and release, every node this host still has
   * locked. Nodes locked by other hosts are not touched.
   */
  function PrepareHost(m: Manager): (r: Manager)
    requires Valid(m.db)
    ensures Valid(r.db) && r.hasDbapi
    ensures r == m.(hasDbapi := true, db := r.db)
    ensures !HasReserved(r)
    ensures r.db.rows.Keys == m.db.rows.Keys
    ensures forall k :: k in m.db.rows && !HeldBy(m.db, k, m.host) ==> r.db.rows[k] == m.db.rows[k]
    ensures forall k :: HeldBy(m.db, k, m.host) ==>
      r.db.rows[k] == m.db.rows[k].(reservation := None, targetPowerState := None)
  {
    var powered := ClearTargetPowerStateFor(m.db, m.host);
    var cleared := ClearReservationsFor(powered, m.host);
    m.(hasDbapi := true, db := cleared)
  }

  /**
   * `del_host`: a manager that never registered is left alone. Otherwise the
   * shutdown flag is set, this host's locks are released when asked, and the
   * record is deregistered when asked, which first drops every interface row
   * of this conductor (a record already gone is ignored).
   * `teardown` is what stopping the periodic tasks and the executor did; if
   * it raised, `_started` is not reset and the exception propagates.
   */
  function DelHost(m: Manager, deregister: bool, clearReservations: bool, teardown: Outcome): (r: Step)
    requires Valid(m.db)
    ensures !m.registered ==> r == Step(m, None)
    ensures m.registered ==>
      && r.m.shutdown == Some(true)
      && r.m.online == (m.online && !deregister)
      && (clearReservations ==> r.m.db == ClearReservationsFor(m.db, m.host) && !HasReserved(r.m))
      && (!clearReservations ==> r.m.db == m.db)
      && (deregister ==> r.m.interfaces == [])
      && (teardown.Pass? ==> !r.m.started && r.raised.None?)
      && (teardown.Raise? ==> r.m.started == m.started && r.raised == Some(teardown.error))
    ensures Valid(r.m.db) && r.m.registered == m.registered && r.m.host == m.host
    ensures !(m.registered && deregister) ==> r.m.interfaces == m.interfaces
    ensures r.m.hasDbapi == m.hasDbapi
  {
    if !m.registered then Step(m, None)
    else
      var m1 := m.(shutdown := Some(true));
      var m2 := if clearReservations then m1.(db := ClearReservationsFor(m1.db, m1.host)) else m1;
      var m3 := if deregister then m2.(online := false, interfaces := []) else m2;
      match teardown
      case Raise(e) => Step(m3, Some(e))
      case Pass => Step(m3.(started := false), None)
  }

  /**
   * The exception classes that `init_host` answers with `del_host` when they
   * come out of registering the hardware interfaces; any other exception
   * propagates with the conductor still registered.
   */
  const RegistrationErrors: set<string> := {
    "DriverLoadError", "DriverNotFound", "ConductorHardwareInterfacesAlreadyRegistered",
    "InterfaceNotFoundInEntrypoint", "NoValidDefaultForInterface"
  }

  /** What `init_host` finds in its environment. */
  datatype InitEnv = InitEnv(
      /** The enabled hardware types, with their interfaces, as the driver factory reports them. */
    hardwareTypes: seq<HardwareInterfaces.HardwareType>,
      /** An error the driver factory raised while loading the hardware types, if any. */
    driverLoad: Option<Exc>,
      /** An error registering the conductor record raised (a bad conductor group, a database error), if any. */
    registerFault: Option<Exc>,
      /**
       * An error raised while the interface rows were registered, if any; the
       * old rows are gone by then.
       */
    interfaceFault: Option<Exc>,
      /** Whether a worker was free to run the keepalive. */
    keepaliveFree: bool,
      /** What the teardown of the `del_host` that a failing `init_host` runs did. */
    cleanupTeardown: Outcome)

  /** Every step of `init_host` that can fail in this environment passes. */
  predicate InitPasses(env: InitEnv) {
    && env.driverLoad.None? && |env.hardwareTypes| > 0 && env.registerFault.None?
    && env.interfaceFault.None? && env.keepaliveFree
  }

  /** The interface registration raised an exception `init_host` does not clean up after. */
  predicate UncaughtRegistrationError(env: InitEnv) {
    env.interfaceFault.Some? && env.interfaceFault.value.className !in RegistrationErrors
  }

  /**
   * The step at which `init_host` runs `del_host` before re-raising: a
   * registration error of one of the `RegistrationErrors` classes, or no
   * free worker for the keepalive.
   */
  predicate CleansUp(env: InitEnv) {
    && env.driverLoad.None? && |env.hardwareTypes| > 0 && env.registerFault.None?
    && !UncaughtRegistrationError(env) && !InitPasses(env)
  }

  /**
   * What a failing step re-raises once `del_host` has run: the step's own
   * exception, unless the teardown inside that `del_host` raised, in which
   * case its exception replaces the first.
   */
  function Reraised(e: Exc, teardown: Outcome): Exc {
    if teardown.Raise? then teardown.error else e
  }

  /**
   * `init_host`. A running manager refuses with `RuntimeError`. Otherwise
   * `_shutdown` is cleared and the driver factory loads the hardware types,
   * which may raise; with none enabled it raises `NoDriversLoaded`. Then the
   * conductor registers, which may raise, its interface rows are replaced,
   * and the keepalive is spawned. A registration error of one of the
   * `RegistrationErrors` classes, or no free worker for the keepalive, runs
   * `del_host()`, which releases this host's locks and deregisters, before
   * the exception propagates; an exception from that `del_host`'s teardown
   * propagates instead. Any other registration error propagates at once.
   */
  function InitHost(m: Manager, env: InitEnv): (r: Step)
    requires Valid(m.db)
    ensures m.started ==> r == Step(m, Some(AlreadyRunning))
    ensures !m.started ==> (r.raised.None? <==> InitPasses(env))
    ensures r.raised.None? ==>
      && r.m.started && r.m.shutdown == Some(false)
      && r.m.registered && r.m.online
      && r.m.interfaces == HardwareInterfaces.InterfaceRows(env.hardwareTypes)
      && r.m.db == m.db
    ensures !m.started && r.raised.Some? ==> !r.m.started
    ensures !m.started && env.driverLoad.Some? ==>
      r == Step(m.(shutdown := Some(false), hasDbapi := true), env.driverLoad)
    ensures !m.started && env.driverLoad.None? && |env.hardwareTypes| == 0 ==>
      r == Step(m.(shutdown := Some(false), hasDbapi := true), Some(NoDriversLoaded(m.host)))
    ensures !m.started && env.driverLoad.None? && |env.hardwareTypes| > 0 && env.registerFault.Some? ==>
      r == Step(m.(shutdown := Some(false), hasDbapi := true), env.registerFault)
    ensures !m.started && env.driverLoad.None? && |env.hardwareTypes| > 0 && env.registerFault.None?
              && env.interfaceFault.Some? ==>
      r.raised == Some(Reraised(env.interfaceFault.value, if UncaughtRegistrationError(env) then Pass else env.cleanupTeardown))
    ensures !m.started && CleansUp(env) && env.interfaceFault.None? ==>
      r.raised == Some(Reraised(NoFreeConductorWorker, env.cleanupTeardown))
    ensures !m.started && env.driverLoad.None? && |env.hardwareTypes| > 0 && env.registerFault.None?
              && UncaughtRegistrationError(env) ==>
      && r.m.shutdown == Some(false) && r.m.registered && r.m.online && r.m.interfaces == []
      && r.m.db == m.db
    ensures !m.started && CleansUp(env) ==>
      && r.m.shutdown == Some(true) && r.m.registered && !r.m.online && r.m.interfaces == []
      && r.m.db == ClearReservationsFor(m.db, m.host) && !HasReserved(r.m)
    ensures Valid(r.m.db) && r.m.host == m.host
  {
    if m.started then Step(m, Some(AlreadyRunning))
    else
      var m1 := m.(shutdown := Some(false), hasDbapi := true);
      if env.driverLoad.Some? then Step(m1, env.driverLoad)
      else if |env.hardwareTypes| == 0 then Step(m1, Some(NoDriversLoaded(m.host)))
      else if env.registerFault.Some? then Step(m1, env.registerFault)
      else
        var m2 := m1.(registered := true, online := true, interfaces := []);
        match env.interfaceFault
        case Some(e) =>
          if e.className in RegistrationErrors then
            var s := DelHost(m2, true, true, env.cleanupTeardown);
            Step(s.m, Some(Reraised(e, env.cleanupTeardown)))
          else
            Step(m2, Some(e))
        case None =>
          var m3 := m2.(interfaces := HardwareInterfaces.InterfaceRows(env.hardwareTypes));
          if !env.keepaliveFree then
            var s := DelHost(m3, true, true, env.cleanupTeardown);
            Step(s.m, Some(Reraised(NoFreeConductorWorker, env.cleanupTeardown)))
          else
            Step(m3.(started := true), None)
  }
}

=== FILE: conductor_manager_properties.dfy ===
/**
 * Properties of the conductor manager's lifecycle that relate several
 * calls: a manager cannot be started twice, `del_host` undoes `init_host`
 * so that the manager can be started again, and a failed `init_host` can
 * be retried.
 */
module ConductorManagerProperties {
  import opened Wrappers
  import opened NodeTable
  import opened ConductorManager

  /** A second `init_host` on a running manager is refused and changes nothing. */
  lemma InitTwiceRefused(m: Manager, env1: InitEnv, env2: InitEnv)
    requires Valid(m.db)
    requires InitHost(m, env1).raised.None?
    ensures var m1 := InitHost(m, env1).m;
      InitHost(m1, env2) == Step(m1, Some(AlreadyRunning))
  {
  }

  /**
   * `del_host` after a successful `init_host` stops the manager and marks it
   * shut down; with the same environment it can then be started again.
   */
  lemma InitDelInit(m: Manager, env: InitEnv, deregister: bool, clearReservations: bool)
    requires Valid(m.db) && !m.started
    requires InitHost(m, env).raised.None?
    ensures var m1 := InitHost(m, env).m;
      var d := DelHost(m1, deregister, clearReservations, Pass);
      && d.raised.None? && !d.m.started && d.m.shutdown == Some(true)
      && d.m.online == !deregister
      && InitHost(d.m, env).raised.None?
      && InitHost(d.m, env).m.shutdown == Some(false)
      && InitHost(d.m, env).m.online
  {
  }

  /**
   * A teardown that raises in `del_host` leaves the manager marked started,
   * so a later `init_host` is refused.
   */
  lemma FailedTeardownBlocksRestart(m: Manager, env: InitEnv, e: Exc)
    requires Valid(m.db) && !m.started
    requires InitHost(m, env).raised.None?
    ensures var d := DelHost(InitHost(m, env).m, true, false, Raise(e));
      && d.raised == Some(e) && d.m.started
      && InitHost(d.m, env).raised == Some(AlreadyRunning)
  {
  }

  /**
   * An `init_host` that failed leaves the manager stopped; a retry in an
   * environment where every step succeeds starts it.
   */
  lemma FailedInitCanRetry(m: Manager, bad: InitEnv, good: InitEnv)
    requires Valid(m.db) && !m.started
    requires InitHost(m, bad).raised.Some?
    requires InitPasses(good)
    ensures var m1 := InitHost(m, bad).m;
      && !m1.started
      && InitHost(m1, good).raised.None?
      && InitHost(m1, good).m.started
  {
  }

  /** `del_host` without clearing reservations keeps every lock this host holds. */
  lemma DelHostKeepsLocks(m: Manager, deregister: bool, teardown: Outcome)
    requires Valid(m.db)
    ensures HasReserved(DelHost(m, deregister, false, teardown).m) == HasReserved(m)
  {
  }

  /**
   * After `prepare_host`, every node another host had locked is still locked
   * by that host, while none is locked by this one.
   */
  lemma PrepareHostOnlyDropsOwnLocks(m: Manager, other: Host)
    requires Valid(m.db) && other != m.host
    ensures forall k :: HeldBy(m.db, k, other) <==> HeldBy(PrepareHost(m).db, k, other)
  {
  }

  /**
   * A new manager has never registered, so `del_host` on it does nothing;
   * `init_host` on it succeeds exactly when its environment lets every step
   * succeed, and keeps the host the constructor chose.
   */
  lemma FreshManager(host: Host, confHost: Host, topic: string, db: Table, env: InitEnv,
                     deregister: bool, clearReservations: bool, teardown: Outcome)
    requires Valid(db)
    ensures var m := NewManager(host, confHost, topic, db);
      && DelHost(m, deregister, clearReservations, teardown) == Step(m, None)
      && (InitHost(m, env).raised.None? <==> InitPasses(env))
      && InitHost(m, env).m.host == (if host == "" then confHost else host)
  {
  }
}

=== FILE: hardware_interfaces.dfy ===
/**
 * The hardware-interface rows a conductor registers at start-up: one row
 * per (hardware type, interface type, enabled interface name), with a
 * `default` flag set exactly on the row whose name is the interface type's
 * computed default.
 *
 * Which interfaces are enabled and which one is the default are computed by
 * the driver factory, which is not part of this model: they arrive here as
 * data, in the iteration order of the dictionaries the factory returns.
 */
module HardwareInterfaces {

  /** One interface type of a hardware type: its enabled names and its default. */
  datatype InterfaceSpec = InterfaceSpec(interfaceType: string, enabled: seq<string>, default: string)

  datatype HardwareType = HardwareType(name: string, interfaces: seq<InterfaceSpec>)

  datatype InterfaceRow = InterfaceRow(
    hardwareType: string,
    interfaceType: string,
    interfaceName: string,
    isDefault: bool)

  /** The row that the name at position `k` of interface `spec` of hardware type `ht` yields. */
  function RowOf(ht: string, spec: InterfaceSpec, k: nat): InterfaceRow
    requires k < |spec.enabled|
  {
    InterfaceRow(ht, spec.interfaceType, spec.enabled[k], spec.enabled[k] == spec.default)
  }

  /** The rows of one interface type, in the order of its enabled names. */
  function RowsForInterface(ht: string, spec: InterfaceSpec): (r: seq<InterfaceRow>)
    ensures |r| == |spec.enabled|
    ensures forall k :: 0 <= k < |r| ==> r[k] == RowOf(ht, spec, k)
  {
    seq(|spec.enabled|, k requires 0 <= k < |spec.enabled| => RowOf(ht, spec, k))
  }

  /** The rows of one hardware type, interface type by interface type. */
  function RowsForSpecs(ht: string, specs: seq<InterfaceSpec>): seq<InterfaceRow>
  {
    if specs == [] then [] else RowsForInterface(ht, specs[0]) + RowsForSpecs(ht, specs[1..])
  }

  /** All rows registered for the given hardware types. */
  function InterfaceRows(hts: seq<HardwareType>): seq<InterfaceRow>
  {
    if hts == [] then [] else RowsForSpecs(hts[0].name, hts[0].interfaces) + InterfaceRows(hts[1..])
  }

  /** How many enabled interface names the hardware types list in total. */
  function EnabledCount(hts: seq<HardwareType>): nat
  {
    if hts == [] then 0 else SpecsCount(hts[0].interfaces) + EnabledCount(hts[1..])
  }

  function SpecsCount(specs: seq<InterfaceSpec>): nat
  {
    if specs == [] then 0 else |specs[0].enabled| + SpecsCount(specs[1..])
  }

  /** `row` is the row for name `k` of interface `j` of hardware type `i`. */
  ghost predicate RowAt(hts: seq<HardwareType>, i: int, j: int, k: int, row: InterfaceRow)
  {
    && 0 <= i < |hts|
    && 0 <= j < |hts[i].interfaces|
    && 0 <= k < |hts[i].interfaces[j].enabled|
    && row == RowOf(hts[i].name, hts[i].interfaces[j], k)
  }

  ghost predicate SpecRowAt(ht: string, specs: seq<InterfaceSpec>, j: int, k: int, row: InterfaceRow)
  {
    && 0 <= j < |specs|
    && 0 <= k < |specs[j].enabled|
    && row == RowOf(ht, specs[j], k)
  }

  lemma {:induction false} RowsForSpecsMembership(ht: string, specs: seq<InterfaceSpec>, row: InterfaceRow)
    ensures row in RowsForSpecs(ht, specs) <==> exists j, k :: SpecRowAt(ht, specs, j, k, row)
    decreases |specs|
  {
    if specs == [] {
    } else {
      var head := RowsForInterface(ht, specs[0]);
      RowsForSpecsMembership(ht, specs[1..], row);
      if row in head {
        var k :| 0 <= k < |head| && head[k] == row;
        assert SpecRowAt(ht, specs, 0, k, row);
      } else if row in RowsForSpecs(ht, specs[1..]) {
        var j, k :| SpecRowAt(ht, specs[1..], j, k, row);
        assert SpecRowAt(ht, specs, j + 1, k, row);
      }
      if exists j, k :: SpecRowAt(ht, specs, j, k, row) {
        var j, k :| SpecRowAt(ht, specs, j, k, row);
        if j == 0 {
          assert head[k] == row;
        } else {
          assert SpecRowAt(ht, specs[1..], j - 1, k, row);
        }
      }
    }
  }

  /**
   * A row is registered exactly when it is the row of some enabled name of
   * some interface type of some hardware type, its `default` flag telling
   * whether that name is the type's default.
   */
  lemma {:induction false} InterfaceRowsMembership(hts: seq<HardwareType>, row: InterfaceRow)
    ensures row in InterfaceRows(hts) <==> exists i, j, k :: RowAt(hts, i, j, k, row)
    decreases |hts|
  {
    if hts == [] {
    } else {
      var head := RowsForSpecs(hts[0].name, hts[0].interfaces);
      RowsForSpecsMembership(hts[0].name, hts[0].interfaces, row);
      InterfaceRowsMembership(hts[1..], row);
      if row in head {
        var j, k :| SpecRowAt(hts[0].name, hts[0].interfaces, j, k, row);
        assert RowAt(hts, 0, j, k, row);
      } else if row in InterfaceRows(hts[1..]) {
        var i, j, k :| RowAt(hts[1..], i, j, k, row);
        assert RowAt(hts, i + 1, j, k, row);
      }
      if exists i, j, k :: RowAt(hts, i, j, k, row) {
        var i, j, k :| RowAt(hts, i, j, k, row);
        if i == 0 {
          assert SpecRowAt(hts[0].name, hts[0].interfaces, j, k, row);
        } else {
          assert RowAt(hts[1..], i - 1, j, k, row);
        }
      }
    }
  }

  lemma {:induction false} RowsForSpecsLength(ht: string, specs: seq<InterfaceSpec>)
    ensures |RowsForSpecs(ht, specs)| == SpecsCount(specs)
    decreases |specs|
  {
    if specs != [] {
      RowsForSpecsLength(ht, specs[1..]);
    }
  }

  /** Exactly one row per enabled name: the row count is the number of enabled names. */
  lemma {:induction false} InterfaceRowsLength(hts: seq<HardwareType>)
    ensures |InterfaceRows(hts)| == EnabledCount(hts)
    decreases |hts|
  {
    if hts != [] {
      RowsForSpecsLength(hts[0].name, hts[0].interfaces);
      InterfaceRowsLength(hts[1..]);
    }
  }

  /** Every registered row's `default` flag agrees with the default of the interface type it came from. */
  lemma DefaultFlagIsComputedDefault(hts: seq<HardwareType>, row: InterfaceRow)
    requires row in InterfaceRows(hts)
    ensures exists i, j ::
              && 0 <= i < |hts| && 0 <= j < |hts[i].interfaces|
              && row.hardwareType == hts[i].name
              && row.interfaceType == hts[i].interfaces[j].interfaceType
              && row.interfaceName in hts[i].interfaces[j].enabled
              && (row.isDefault <==> row.interfaceName == hts[i].interfaces[j].default)
  {
    InterfaceRowsMembership(hts, row);
    var i, j, k :| RowAt(hts, i, j, k, row);
    assert hts[i].interfaces[j].enabled[k] == row.interfaceName;
  }
}

=== FILE: node_iteration.dfy ===
/**
 * Walking the nodes this conductor owns: `iter_nodes`, which filters a node
 * query down to the rows the hash ring maps to this conductor and stops
 * once the manager is shutting down, and `_fail_if_in_state`, which moves
 * stuck nodes to their failure state, bounded by the number of workers it
 * may use.
 *
 * Hash-ring placement and task acquisition are outside the model: the first
 * is a predicate parameter, the second a function from node uuid to what
 * acquiring that node's lock found.
 */
module NodeIteration {
  import opened Wrappers

  /** A row of the node query: the three fixed columns, then the requested fields. */
  datatype NodeInfo = NodeInfo(uuid: string, driver: string, conductorGroup: string, fields: seq<string>)

  /** The placement check: is the node with this (uuid, driver, group) mapped to this conductor? */
  type Placement = (string, string, string) -> bool

  const FixedColumns: seq<string> := ["uuid", "driver", "conductor_group"]

  /** The columns `iter_nodes` asks for: always the three fixed ones first. */
  function Columns(fields: seq<string>): (c: seq<string>)
    ensures |c| == 3 + |fields|
    ensures c[..3] == FixedColumns && c[3..] == fields
  {
    FixedColumns + fields
  }

  predicate IsMapped(mapped: Placement, row: NodeInfo) {
    mapped(row.uuid, row.driver, row.conductorGroup)
  }

  /**
   * The rows of `rows` that are mapped to this conductor, in query order.
   * Defined from the end so that it grows one row at a time.
   */
  function MappedRows(rows: seq<NodeInfo>, mapped: Placement): (r: seq<NodeInfo>)
    ensures |r| <= |rows|
    ensures forall x :: x in r <==> x in rows && IsMapped(mapped, x)
  {
    if rows == [] then []
    else
      var last := rows[|rows| - 1];
      var front := MappedRows(rows[..|rows| - 1], mapped);
      assert forall x :: x in rows <==> x in rows[..|rows| - 1] || x == last by {
        assert rows == rows[..|rows| - 1] + [last];
      }
      if IsMapped(mapped, last) then front + [last] else front
  }

  /** `sub` keeps some elements of `s`, in their order in `s`. */
  ghost predicate IsSubsequence<T>(sub: seq<T>, s: seq<T>)
  {
    exists idx: seq<nat> ::
      && |idx| == |sub|
      && (forall a :: 0 <= a < |idx| ==> idx[a] < |s| && s[idx[a]] == sub[a])
      && (forall a, b :: 0 <= a < b < |idx| ==> idx[a] < idx[b])
  }

  /** Extending the sequence keeps a subsequence one; extending both by the same element too. */
  lemma SubsequenceExtend<T>(sub: seq<T>, s: seq<T>, x: T)
    requires IsSubsequence(sub, s)
    ensures IsSubsequence(sub, s + [x])
    ensures IsSubsequence(sub + [x], s + [x])
  {
    var idx: seq<nat> :|
      && |idx| == |sub|
      && (forall a :: 0 <= a < |idx| ==> idx[a] < |s| && s[idx[a]] == sub[a])
      && (forall a, b :: 0 <= a < b < |idx| ==> idx[a] < idx[b]);
    var s' := s + [x];
    forall a | 0 <= a < |idx|
      ensures idx[a] < |s'| && s'[idx[a]] == sub[a]
    {
      assert s'[idx[a]] == s[idx[a]];
    }
    var idx' := idx + [|s|];
    var sub' := sub + [x];
    forall a | 0 <= a < |idx'|
      ensures idx'[a] < |s'| && s'[idx'[a]] == sub'[a]
    {
      if a < |idx| {
        assert idx'[a] == idx[a] && sub'[a] == sub[a];
      }
    }
    forall a, b | 0 <= a < b < |idx'|
      ensures idx'[a] < idx'[b]
    {
      assert idx'[a] == idx[a];
    }
    assert |idx'| == |sub'|;
  }

  /** The mapped rows keep the query's order. */
  lemma {:induction false} MappedRowsInOrder(rows: seq<NodeInfo>, mapped: Placement)
    ensures IsSubsequence(MappedRows(rows, mapped), rows)
    decreases |rows|
  {
    if rows == [] {
      var idx: seq<nat> := [];
      assert |idx| == 0;
    } else {
      var n := |rows| - 1;
      var front := rows[..n];
      MappedRowsInOrder(front, mapped);
      SubsequenceExtend(MappedRows(front, mapped), front, rows[n]);
      assert front + [rows[n]] == rows;
    }
  }

  /**
   * `iter_nodes`: run the query, then hand out the rows mapped to this
   * conductor. Before each row it looks at `_shutdown`; `shutdownAt` is the
   * number of rows it got through before seeing the flag set (at least
   * |rows| if it never did). From then on nothing more is yielded.
   */
  method IterNodes(fields: seq<string>, rows: seq<NodeInfo>, mapped: Placement, shutdownAt: nat)
    returns (columns: seq<string>, yielded: seq<NodeInfo>)
    ensures |columns| == 3 + |fields| && columns[..3] == FixedColumns && columns[3..] == fields
    ensures yielded == MappedRows(rows[..if shutdownAt < |rows| then shutdownAt else |rows|], mapped)
    ensures forall x :: x in yielded ==> x in rows && IsMapped(mapped, x)
    ensures shutdownAt == 0 ==> yielded == []
  {
    columns := Columns(fields);
    yielded := [];
    var i := 0;
    while i < |rows|
      invariant i <= |rows| && i <= shutdownAt
      invariant yielded == MappedRows(rows[..i], mapped)
    {
      if i == shutdownAt {
        break;
      }
      assert rows[..i + 1][..i] == rows[..i];
      if IsMapped(mapped, rows[i]) {
        yielded := yielded + [rows[i]];
      }
      i := i + 1;
    }
    assert rows[..i] == rows[..if shutdownAt < |rows| then shutdownAt else |rows|];
  }

  /** The provision-state argument: one state, or a set of them. */
  datatype StateArg = OneState(state: string) | StateSet(states: set<string>)

  /** A single state is treated as the set holding only it. */
  function AsSet(a: StateArg): (s: set<string>)
    ensures a.OneState? ==> s == {a.state}
    ensures a.StateSet? ==> s == a.states
  {
    match a
    case OneState(st) => {st}
    case StateSet(ss) => ss
  }

  /** What taking a node's lock found. */
  datatype Attempt =
    | Locked
    | NotFound
      /**
       * The lock was taken; the node's maintenance flag and provision state,
       * and whether a worker was free for the callback of the fail event.
       */
    | Acquired(maintenance: bool, provisionState: string, workerFree: bool)

  /** The sweep's fixed parameters. */
  datatype SweepParams = SweepParams(
    states: StateArg,
    desiredMaintenance: Option<bool>,
    hasCallback: bool,
    maxWorkers: int)

  /** The node was locked and is still in the wanted state and maintenance mode. */
  predicate Stuck(a: Attempt, p: SweepParams) {
    && a.Acquired?
    && (p.desiredMaintenance.None? || p.desiredMaintenance.value == a.maintenance)
    && a.provisionState in AsSet(p.states)
  }

  /**
   * A single provision state selects the same nodes as the set holding only
   * it: an acquired node whose maintenance matches and whose provision state
   * is that state.
   */
  lemma SingleStateAsSet(a: Attempt, st: string, desiredMaintenance: Option<bool>,
                         hasCallback: bool, maxWorkers: int)
    ensures var one := SweepParams(OneState(st), desiredMaintenance, hasCallback, maxWorkers);
      var set1 := SweepParams(StateSet({st}), desiredMaintenance, hasCallback, maxWorkers);
      && (Stuck(a, one) <==> Stuck(a, set1))
      && (Stuck(a, one) <==>
            a.Acquired? && a.provisionState == st
            && (desiredMaintenance.None? || desiredMaintenance.value == a.maintenance))
  {
  }

  /** Failing the node needed a worker for its callback and none was free. */
  predicate Starved(a: Attempt, p: SweepParams) {
    Stuck(a, p) && p.hasCallback && !a.workerFree
  }

  function Max1(n: int): nat {
    if n < 1 then 1 else n
  }

  /**
   * The loop of `_fail_if_in_state` over the rows `iter_nodes` yields, with
   * `count` nodes already failed: the uuids of the nodes it fails, in order.
   */
  function Sweep(rows: seq<NodeInfo>, acquire: string -> Attempt, p: SweepParams, count: nat): seq<string>
  {
    if rows == [] then []
    else
      var a := acquire(rows[0].uuid);
      if !Stuck(a, p) then Sweep(rows[1..], acquire, p, count)
      else if Starved(a, p) then []
      else if count + 1 >= p.maxWorkers then [rows[0].uuid]
      else [rows[0].uuid] + Sweep(rows[1..], acquire, p, count + 1)
  }

  /** The uuids of the stuck nodes met before the first node the sweep could not find a worker for. */
  function StuckBeforeStarved(rows: seq<NodeInfo>, acquire: string -> Attempt, p: SweepParams): (r: seq<string>)
    ensures |r| <= |rows|
  {
    if rows == [] then []
    else
      var a := acquire(rows[0].uuid);
      if !Stuck(a, p) then StuckBeforeStarved(rows[1..], acquire, p)
      else if Starved(a, p) then []
      else [rows[0].uuid] + StuckBeforeStarved(rows[1..], acquire, p)
  }

  function Min(a: int, b: int): int {
    if a < b then a else b
  }

  /**
   * The sweep fails the first `max(1, maxWorkers - count)` of the stuck nodes
   * before the first starved one, or all of them if there are fewer.
   */
  lemma {:induction false} SweepIsBoundedPrefix(rows: seq<NodeInfo>, acquire: string -> Attempt, p: SweepParams, count: nat)
    ensures var e := StuckBeforeStarved(rows, acquire, p);
      Sweep(rows, acquire, p, count) == e[..Min(|e|, Max1(p.maxWorkers - count))]
    decreases |rows|
  {
    if rows != [] {
      var a := acquire(rows[0].uuid);
      if !Stuck(a, p) {
        SweepIsBoundedPrefix(rows[1..], acquire, p, count);
      } else if !Starved(a, p) && count + 1 < p.maxWorkers {
        SweepIsBoundedPrefix(rows[1..], acquire, p, count + 1);
      }
    }
  }

  /**
   * `_fail_if_in_state` over the rows `iter_nodes` yielded. Nodes whose lock
   * was held elsewhere or which vanished, and nodes whose maintenance flag or
   * state no longer match, are skipped without counting; a missing worker
   * ends the sweep; so does reaching `periodic_max_workers` failed nodes.
   */
  method FailIfInState(rows: seq<NodeInfo>, acquire: string -> Attempt, p: SweepParams)
    returns (failed: seq<string>)
    ensures failed == Sweep(rows, acquire, p, 0)
    ensures |failed| <= Max1(p.maxWorkers)
    ensures forall u :: u in failed ==> exists i :: 0 <= i < |rows| && rows[i].uuid == u && Stuck(acquire(u), p)
  {
    failed := [];
    var workersCount: nat := 0;
    var i := 0;
    while i < |rows|
      invariant i <= |rows|
      invariant workersCount == |failed|
      invariant failed + Sweep(rows[i..], acquire, p, workersCount) == Sweep(rows, acquire, p, 0)
      invariant workersCount == 0 || workersCount < p.maxWorkers
      invariant forall u :: u in failed ==> exists j :: 0 <= j < i && rows[j].uuid == u && Stuck(acquire(u), p)
    {
      var a := acquire(rows[i].uuid);
      assert rows[i..][1..] == rows[i + 1..];
      if a.Locked? || a.NotFound? {
        i := i + 1;
        continue;
      }
      if p.desiredMaintenance.Some? && p.desiredMaintenance.value != a.maintenance {
        i := i + 1;
        continue;
      }
      if a.provisionState !in AsSet(p.states) {
        i := i + 1;
        continue;
      }
      if p.hasCallback && !a.workerFree {
        break;
      }
      failed := failed + [rows[i].uuid];
      workersCount := workersCount + 1;
      i := i + 1;
      if workersCount >= p.maxWorkers {
        break;
      }
    }
    SweepLength(rows, acquire, p);
  }

  lemma SweepLength(rows: seq<NodeInfo>, acquire: string -> Attempt, p: SweepParams)
    ensures |Sweep(rows, acquire, p, 0)| <= Max1(p.maxWorkers)
  {
    SweepIsBoundedPrefix(rows, acquire, p, 0);
  }
}

=== FILE: node_table.dfy ===
/**
 * The node table of the conductor database, as far as the join/leave
 * lifecycle depends on it: rows keyed by integer id, each carrying the
 * `reservation` lock (the host name holding the node, or none), and the
 * uniqueness rules on uuid, name and instance_uuid.
 *
 * The database implementation is not part of this model; the contract
 * below is the one the database tests pin down.
 */
module NodeTable {
  import opened Wrappers

  type NodeId = nat
  type Host = string

  datatype Node = Node(
    id: NodeId,
    uuid: string,
    name: Option<string>,
    instanceUuid: Option<string>,
    reservation: Option<Host>,
    targetPowerState: Option<string>,
    maintenance: bool,
    provisionState: string,
    driver: string,
    conductorGroup: string,
      /** Why the node was put into maintenance, if it was. */
    fault: Option<string>,
    resourceClass: Option<string>)

  /** The database API accepts either a node's integer id or its uuid. */
  datatype NodeRef = ById(id: NodeId) | ByUuid(uuid: string)

  datatype DbError =
    | NodeAlreadyExists(uuid: string)
    | DuplicateName(name: string)
    | InstanceAssociated(instanceUuid: string, node: string)
    | NodeNotFound(ref: NodeRef)
    | NodeLocked(node: string, host: Host)
    | NodeNotLocked(node: string, host: Host)
    | InvalidParameterValue(field: string)
      /** The `ValueError` of a node query: the keys it did not recognise. */
    | UnsupportedFilters(keys: set<string>)

  /** All rows, and the id the next created node receives (autoincrement). */
  datatype Table = Table(rows: map<NodeId, Node>, nextId: NodeId)

  const EmptyTable: Table := Table(map[], 0)

  /** Two different rows never share a uuid, a name or an instance_uuid. */
  predicate Distinct(x: Node, y: Node) {
    && x.uuid != y.uuid
    && (x.name.None? || x.name != y.name)
    && (x.instanceUuid.None? || x.instanceUuid != y.instanceUuid)
  }

  /** The integrity the database's keys and unique constraints maintain. */
  ghost predicate Valid(t: Table) {
    && (forall k :: k in t.rows ==> k < t.nextId && t.rows[k].id == k)
    && (forall a, b :: a in t.rows && b in t.rows && a != b ==> Distinct(t.rows[a], t.rows[b]))
  }

  predicate Matches(n: Node, ref: NodeRef) {
    match ref
    case ById(id) => n.id == id
    case ByUuid(u) => n.uuid == u
  }

  /** The row a reference designates, if there is one. */
  function Find(t: Table, ref: NodeRef): (r: Option<NodeId>)
    requires Valid(t)
    ensures r.Some? ==> r.value in t.rows && Matches(t.rows[r.value], ref)
    ensures r.None? ==> forall k :: k in t.rows ==> !Matches(t.rows[k], ref)
  {
    match ref
    case ById(id) => if id in t.rows then Some(id) else None
    case ByUuid(u) =>
      if exists k :: k in t.rows && t.rows[k].uuid == u then
        var k :| k in t.rows && t.rows[k].uuid == u;
        Some(k)
      else
        None
  }

  function Get(t: Table, ref: NodeRef): (r: Result<Node, DbError>)
    requires Valid(t)
    ensures r.Failure? <==> forall k :: k in t.rows ==> !Matches(t.rows[k], ref)
    ensures r.Failure? ==> r.error == NodeNotFound(ref)
    ensures r.Success? ==> r.value in t.rows.Values && Matches(r.value, ref)
  {
    match Find(t, ref)
    case None => Failure(NodeNotFound(ref))
    case Some(k) => Success(t.rows[k])
  }

  /** Some row other than those in `except` already carries this name. */
  predicate NameInUse(t: Table, name: Option<string>, except: set<NodeId>) {
    name.Some? && exists k :: k in t.rows && k !in except && t.rows[k].name == name
  }

  /** Some row other than those in `except` is already bound to this instance. */
  predicate InstanceInUse(t: Table, inst: Option<string>, except: set<NodeId>) {
    inst.Some? && exists k :: k in t.rows && k !in except && t.rows[k].instanceUuid == inst
  }

  predicate UuidInUse(t: Table, uuid: string) {
    exists k :: k in t.rows && t.rows[k].uuid == uuid
  }

  /**
   * Insert a node. Its id is assigned by the table; the other columns are
   * taken from `n`. A clash on name, instance_uuid or uuid is refused, in
   * that order of precedence.
   */
  function Create(t: Table, n: Node): (r: Result<(Table, Node), DbError>)
    requires Valid(t)
    ensures r.Failure? <==> exists k :: k in t.rows && !Distinct(n, t.rows[k])
    ensures r.Failure? ==>
      if NameInUse(t, n.name, {}) then r.error == DuplicateName(n.name.value)
      else if InstanceInUse(t, n.instanceUuid, {}) then r.error == InstanceAssociated(n.instanceUuid.value, n.uuid)
      else r.error == NodeAlreadyExists(n.uuid)
    ensures r.Success? ==>
      && r.value.1 == n.(id := t.nextId)
      && r.value.0.rows == t.rows[t.nextId := r.value.1]
      && t.nextId !in t.rows
      && Valid(r.value.0)
  {
    if NameInUse(t, n.name, {}) then Failure(DuplicateName(n.name.value))
    else if InstanceInUse(t, n.instanceUuid, {}) then Failure(InstanceAssociated(n.instanceUuid.value, n.uuid))
    else if UuidInUse(t, n.uuid) then Failure(NodeAlreadyExists(n.uuid))
    else
      var m := n.(id := t.nextId);
      Success((Table(t.rows[t.nextId := m], t.nextId + 1), m))
  }

  /** One column assignment of an update request. */
  datatype Change =
    | SetUuid(uuid: string)
    | SetName(name: Option<string>)
    | SetInstance(instanceUuid: Option<string>)
    | SetMaintenance(maintenance: bool)
    | SetProvisionState(state: string)

  function Apply(n: Node, c: Change): Node
    requires !c.SetUuid?
  {
    match c
    case SetName(nm) => n.(name := nm)
    case SetInstance(i) => n.(instanceUuid := i)
    case SetMaintenance(m) => n.(maintenance := m)
    case SetProvisionState(s) => n.(provisionState := s)
  }

  /**
   * Update one column of a node. The uuid can never be changed; a name or
   * instance_uuid already held by another node is refused.
   */
  function Update(t: Table, ref: NodeRef, c: Change): (r: Result<Table, DbError>)
    requires Valid(t)
    ensures c.SetUuid? ==> r == Failure(InvalidParameterValue("uuid"))
    ensures !c.SetUuid? && Find(t, ref).None? ==> r == Failure(NodeNotFound(ref))
    ensures !c.SetUuid? && Find(t, ref).Some? ==>
      var k := Find(t, ref).value;
      if c.SetName? && NameInUse(t, c.name, {k}) then r == Failure(DuplicateName(c.name.value))
      else if c.SetInstance? && InstanceInUse(t, c.instanceUuid, {k}) then
        r == Failure(InstanceAssociated(c.instanceUuid.value, t.rows[k].uuid))
      else r.Success? && r.value.rows == t.rows[k := Apply(t.rows[k], c)]
    ensures r.Success? ==> Valid(r.value) && r.value.rows.Keys == t.rows.Keys
  {
    if c.SetUuid? then Failure(InvalidParameterValue("uuid"))
    else match Find(t, ref)
      case None => Failure(NodeNotFound(ref))
      case Some(k) =>
        if c.SetName? && NameInUse(t, c.name, {k}) then Failure(DuplicateName(c.name.value))
        else if c.SetInstance? && InstanceInUse(t, c.instanceUuid, {k}) then
          Failure(InstanceAssociated(c.instanceUuid.value, t.rows[k].uuid))
        else
          Success(t.(rows := t.rows[k := Apply(t.rows[k], c)]))
  }

  function Destroy(t: Table, ref: NodeRef): (r: Result<Table, DbError>)
    requires Valid(t)
    ensures r.Failure? <==> Find(t, ref).None?
    ensures r.Failure? ==> r.error == NodeNotFound(ref)
    ensures r.Success? ==>
      && Valid(r.value)
      && r.value.rows == t.rows - {Find(t, ref).value}
      && r.value.nextId == t.nextId
  {
    match Find(t, ref)
    case None => Failure(NodeNotFound(ref))
    case Some(k) => Success(t.(rows := t.rows - {k}))
  }

  /**
   * Take the reservation lock on a node for `tag`. A node that is already
   * reserved is refused with `NodeLocked`, naming the current holder.
   */
  function Reserve(t: Table, tag: Host, ref: NodeRef): (r: Result<Table, DbError>)
    requires Valid(t)
    ensures Find(t, ref).None? ==> r == Failure(NodeNotFound(ref))
    ensures Find(t, ref).Some? ==>
      var n := t.rows[Find(t, ref).value];
      if n.reservation.Some? then r == Failure(NodeLocked(n.uuid, n.reservation.value))
      else r == Success(t.(rows := t.rows[n.id := n.(reservation := Some(tag))]))
    ensures r.Success? ==> Valid(r.value)
  {
    match Find(t, ref)
    case None => Failure(NodeNotFound(ref))
    case Some(k) =>
      var n := t.rows[k];
      if n.reservation.Some? then Failure(NodeLocked(n.uuid, n.reservation.value))
      else Success(t.(rows := t.rows[k := n.(reservation := Some(tag))]))
  }

  /**
   * Drop the reservation lock `tag` holds on a node. Releasing an unlocked
   * node is `NodeNotLocked`; releasing another holder's lock is `NodeLocked`.
   */
  function Release(t: Table, tag: Host, ref: NodeRef): (r: Result<Table, DbError>)
    requires Valid(t)
    ensures Find(t, ref).None? ==> r == Failure(NodeNotFound(ref))
    ensures Find(t, ref).Some? ==>
      var n := t.rows[Find(t, ref).value];
      if n.reservation.None? then r == Failure(NodeNotLocked(n.uuid, tag))
      else if n.reservation != Some(tag) then r == Failure(NodeLocked(n.uuid, n.reservation.value))
      else r == Success(t.(rows := t.rows[n.id := n.(reservation := None)]))
    ensures r.Success? ==> Valid(r.value)
  {
    match Find(t, ref)
    case None => Failure(NodeNotFound(ref))
    case Some(k) =>
      var n := t.rows[k];
      if n.reservation.None? then Failure(NodeNotLocked(n.uuid, tag))
      else if n.reservation != Some(tag) then Failure(NodeLocked(n.uuid, n.reservation.value))
      else Success(t.(rows := t.rows[k := n.(reservation := None)]))
  }

  /** Release every lock `host` holds; every other row is untouched. */
  function ClearReservationsFor(t: Table, host: Host): (r: Table)
    requires Valid(t)
    ensures Valid(r) && r.rows.Keys == t.rows.Keys && r.nextId == t.nextId
    ensures forall k :: k in r.rows ==> r.rows[k].reservation != Some(host)
    ensures forall k :: k in t.rows && t.rows[k].reservation != Some(host) ==> r.rows[k] == t.rows[k]
    ensures forall k :: k in t.rows && t.rows[k].reservation == Some(host) ==>
      r.rows[k] == t.rows[k].(reservation := None)
  {
    Table(map k | k in t.rows ::
            if t.rows[k].reservation == Some(host) then t.rows[k].(reservation := None) else t.rows[k],
          t.nextId)
  }

  /** Forget the pending power transition of every node `host` holds locked. */
  function ClearTargetPowerStateFor(t: Table, host: Host): (r: Table)
    requires Valid(t)
    ensures Valid(r) && r.rows.Keys == t.rows.Keys && r.nextId == t.nextId
    ensures forall k :: k in t.rows && t.rows[k].reservation != Some(host) ==> r.rows[k] == t.rows[k]
    ensures forall k :: k in t.rows && t.rows[k].reservation == Some(host) ==>
      r.rows[k] == t.rows[k].(targetPowerState := None)
  {
    Table(map k | k in t.rows ::
            if t.rows[k].reservation == Some(host) then t.rows[k].(targetPowerState := None) else t.rows[k],
          t.nextId)
  }

  /**
   * The filter keys of a node query: those the lifecycle and the database
   * tests use, and `Unknown` for a key outside `KnownKeys`.
   */
  datatype Filter =
    | Id(id: NodeId)
    | Uuid(uuid: string)
    | Associated(associated: bool)
    | Reserved(reserved: bool)
    | ReservedByAnyOf(hosts: seq<Host>)
    | Maintenance(maintenance: bool)
    | ProvisionState(state: string)
    | Driver(driver: string)
    | ConductorGroup(group: string)
    | Fault(fault: string)
    | ResourceClass(resourceClass: string)
    | Unknown(key: string)

  /** The keys the filters above stand for. */
  const KnownKeys: set<string> := {
    "id", "uuid", "associated", "reserved", "reserved_by_any_of", "maintenance",
    "provision_state", "driver", "conductor_group", "fault", "resource_class"
  }

  /** A recognised key is always written with its own filter, never as `Unknown`. */
  predicate WellFormed(fs: seq<Filter>) {
    forall i :: 0 <= i < |fs| && fs[i].Unknown? ==> fs[i].key !in KnownKeys
  }

  predicate Admits(f: Filter, n: Node) {
    match f
    case Id(id) => n.id == id
    case Uuid(u) => n.uuid == u
    case Associated(b) => n.instanceUuid.Some? == b
    case Reserved(b) => n.reservation.Some? == b
    case ReservedByAnyOf(hs) => n.reservation.Some? && n.reservation.value in hs
    case Maintenance(m) => n.maintenance == m
    case ProvisionState(s) => n.provisionState == s
    case Driver(d) => n.driver == d
    case ConductorGroup(g) => n.conductorGroup == g
    case Fault(x) => n.fault == Some(x)
    case ResourceClass(rc) => n.resourceClass == Some(rc)
    case Unknown(_) => true
  }

  function UnknownKeys(fs: seq<Filter>): set<string> {
    set i | 0 <= i < |fs| && fs[i].Unknown? :: fs[i].key
  }

  /**
   * The ids of the nodes that pass every filter; any unrecognised key makes
   * the whole query fail, whatever else the request holds.
   */
  function Query(t: Table, fs: seq<Filter>): (r: Result<set<NodeId>, DbError>)
    requires WellFormed(fs)
    ensures r.Failure? <==> exists i :: 0 <= i < |fs| && fs[i].Unknown?
    ensures r.Failure? ==> r.error == UnsupportedFilters(UnknownKeys(fs)) && r.error.keys != {}
    ensures r.Success? ==>
      forall k :: k in r.value <==> k in t.rows && forall i :: 0 <= i < |fs| ==> Admits(fs[i], t.rows[k])
  {
    if exists i :: 0 <= i < |fs| && fs[i].Unknown? then
      assert UnknownKeys(fs) != {} by {
        var i :| 0 <= i < |fs| && fs[i].Unknown?;
        assert fs[i].key in UnknownKeys(fs);
      }
      Failure(UnsupportedFilters(UnknownKeys(fs)))
    else
      Success(set k | k in t.rows && forall i :: 0 <= i < |fs| ==> Admits(fs[i], t.rows[k]))
  }
}

=== FILE: node_table_properties.dfy ===
/**
 * Properties of the node table that relate several calls: the reservation
 * lock's round trip and exclusion, what a destroyed node answers, how the
 * reservation filters split the table, and the uniqueness rules seen from
 * a second create or update.
 */
module NodeTableProperties {
  import opened Wrappers
  import opened NodeTable

  /** Changing a row's columns other than id and uuid leaves the references to it in place. */
  lemma FindAfterRowChange(t: Table, t': Table, ref: NodeRef, k: NodeId)
    requires Valid(t) && Valid(t') && k in t.rows && Matches(t.rows[k], ref)
    requires t'.rows.Keys == t.rows.Keys
    requires forall j :: j in t.rows ==> t'.rows[j].uuid == t.rows[j].uuid && t'.rows[j].id == t.rows[j].id
    ensures Find(t', ref) == Some(k)
  {
  }

  /**
   * Reserving a free node and releasing it with the same tag gives back the
   * table as it was.
   */
  lemma ReserveReleaseRoundTrip(t: Table, tag: Host, ref: NodeRef)
    requires Valid(t)
    requires Reserve(t, tag, ref).Success?
    ensures Release(Reserve(t, tag, ref).value, tag, ref) == Success(t)
  {
    var k := Find(t, ref).value;
    var n := t.rows[k];
    var t' := Reserve(t, tag, ref).value;
    FindAfterRowChange(t, t', ref, k);
    assert n.reservation.None? && n.id == k;
    assert t'.rows[k] == n.(reservation := Some(tag));
    assert t'.rows[k].(reservation := None) == n;
    assert t'.rows[k := n] == t.rows;
  }

  /** While one tag holds a node, a second reservation is refused, naming the holder. */
  lemma SecondReserveRefused(t: Table, a: Host, b: Host, ref: NodeRef)
    requires Valid(t)
    requires Reserve(t, a, ref).Success?
    ensures var k := Find(t, ref).value;
      Reserve(Reserve(t, a, ref).value, b, ref) == Failure(NodeLocked(t.rows[k].uuid, a))
  {
    var k := Find(t, ref).value;
    var t' := Reserve(t, a, ref).value;
    FindAfterRowChange(t, t', ref, k);
  }

  /** A tag that does not hold the lock cannot release it; the error names the holder. */
  lemma NonHolderCannotRelease(t: Table, a: Host, b: Host, ref: NodeRef)
    requires Valid(t) && a != b
    requires Reserve(t, a, ref).Success?
    ensures var k := Find(t, ref).value;
      Release(Reserve(t, a, ref).value, b, ref) == Failure(NodeLocked(t.rows[k].uuid, a))
  {
    var k := Find(t, ref).value;
    var t' := Reserve(t, a, ref).value;
    FindAfterRowChange(t, t', ref, k);
  }

  /** Once the holder has released a node, another tag can take it. */
  lemma ReleaseThenOtherReserves(t: Table, a: Host, b: Host, ref: NodeRef)
    requires Valid(t)
    requires Reserve(t, a, ref).Success?
    ensures var t1 := Release(Reserve(t, a, ref).value, a, ref);
      && t1.Success?
      && Reserve(t1.value, b, ref).Success?
      && Reserve(t1.value, b, ref).value.rows[Find(t, ref).value].reservation == Some(b)
  {
    ReserveReleaseRoundTrip(t, a, ref);
  }

  /** Releasing a node nobody holds is refused as not locked. */
  lemma ReleaseUnlockedRefused(t: Table, tag: Host, ref: NodeRef)
    requires Valid(t)
    requires Reserve(t, tag, ref).Success?
    ensures var k := Find(t, ref).value;
      Release(t, tag, ref) == Failure(NodeNotLocked(t.rows[k].uuid, tag))
  {
  }

  /**
   * After a node is destroyed, every reference that designated it, by id or
   * by uuid and whichever one destroyed it, reports it missing.
   */
  lemma DestroyedNodeNotFound(t: Table, ref: NodeRef, tag: Host)
    requires Valid(t)
    requires Destroy(t, ref).Success?
    ensures var n := t.rows[Find(t, ref).value];
      var t' := Destroy(t, ref).value;
      forall ref2 :: Matches(n, ref2) ==>
        && Get(t', ref2) == Failure(NodeNotFound(ref2))
        && Reserve(t', tag, ref2) == Failure(NodeNotFound(ref2))
        && Release(t', tag, ref2) == Failure(NodeNotFound(ref2))
        && Destroy(t', ref2) == Failure(NodeNotFound(ref2))
  {
    var k := Find(t, ref).value;
    var t' := Destroy(t, ref).value;
    forall ref2 | Matches(t.rows[k], ref2)
      ensures Find(t', ref2).None?
    {
      forall j | j in t'.rows
        ensures !Matches(t'.rows[j], ref2)
      {
        assert Distinct(t.rows[j], t.rows[k]);
      }
    }
  }

  /** The test's `destroy_node(node.id)`: reserving and releasing by id or by uuid then fail. */
  lemma DestroyByIdThenUuid(t: Table, k: NodeId, tag: Host)
    requires Valid(t) && k in t.rows
    ensures var t' := Destroy(t, ById(k));
      var u := ByUuid(t.rows[k].uuid);
      && t'.Success?
      && Reserve(t'.value, tag, ById(k)) == Failure(NodeNotFound(ById(k)))
      && Reserve(t'.value, tag, u) == Failure(NodeNotFound(u))
      && Release(t'.value, tag, ById(k)) == Failure(NodeNotFound(ById(k)))
      && Release(t'.value, tag, u) == Failure(NodeNotFound(u))
  {
    DestroyedNodeNotFound(t, ById(k), tag);
  }

  /** `reserved: true` and `reserved: false` split the table into two disjoint parts. */
  lemma ReservedFiltersPartition(t: Table)
    ensures Query(t, [Reserved(true)]).Success? && Query(t, [Reserved(false)]).Success?
    ensures var held := Query(t, [Reserved(true)]).value;
      var free := Query(t, [Reserved(false)]).value;
      && held * free == {}
      && held + free == t.rows.Keys
      && (forall k :: k in held <==> k in t.rows && t.rows[k].reservation.Some?)
  {
    var fs1 := [Reserved(true)];
    var fs0 := [Reserved(false)];
    var held := Query(t, fs1).value;
    var free := Query(t, fs0).value;
    forall k | k in t.rows
      ensures k in held <==> t.rows[k].reservation.Some?
      ensures k in free <==> t.rows[k].reservation.None?
    {
      assert (forall i :: 0 <= i < |fs1| ==> Admits(fs1[i], t.rows[k])) <==> Admits(fs1[0], t.rows[k]);
      assert (forall i :: 0 <= i < |fs0| ==> Admits(fs0[i], t.rows[k])) <==> Admits(fs0[0], t.rows[k]);
    }
  }

  /** An `id` filter and a `uuid` filter each select exactly the one node they name, or nothing. */
  lemma IdAndUuidFiltersSelectOne(t: Table, k: NodeId, u: string)
    requires Valid(t)
    ensures Query(t, [Id(k)]).Success? && Query(t, [Uuid(u)]).Success?
    ensures Query(t, [Id(k)]).value == if k in t.rows then {k} else {}
    ensures Find(t, ByUuid(u)).Some? ==> Query(t, [Uuid(u)]).value == {Find(t, ByUuid(u)).value}
    ensures Find(t, ByUuid(u)).None? ==> Query(t, [Uuid(u)]).value == {}
  {
    var fi := [Id(k)];
    var fu := [Uuid(u)];
    forall j | j in t.rows
      ensures j in Query(t, fi).value <==> j == k
      ensures j in Query(t, fu).value <==> t.rows[j].uuid == u
    {
      assert (forall i :: 0 <= i < |fi| ==> Admits(fi[i], t.rows[j])) <==> Admits(fi[0], t.rows[j]);
      assert (forall i :: 0 <= i < |fu| ==> Admits(fu[i], t.rows[j])) <==> Admits(fu[0], t.rows[j]);
    }
  }

  /** `associated: true` and `associated: false` split the table by whether an instance is bound. */
  lemma AssociatedFiltersPartition(t: Table)
    ensures Query(t, [Associated(true)]).Success? && Query(t, [Associated(false)]).Success?
    ensures var bound := Query(t, [Associated(true)]).value;
      var unbound := Query(t, [Associated(false)]).value;
      && bound * unbound == {}
      && bound + unbound == t.rows.Keys
      && (forall k :: k in bound <==> k in t.rows && t.rows[k].instanceUuid.Some?)
  {
    var fs1 := [Associated(true)];
    var fs0 := [Associated(false)];
    forall k | k in t.rows
      ensures k in Query(t, fs1).value <==> t.rows[k].instanceUuid.Some?
      ensures k in Query(t, fs0).value <==> t.rows[k].instanceUuid.None?
    {
      assert (forall i :: 0 <= i < |fs1| ==> Admits(fs1[i], t.rows[k])) <==> Admits(fs1[0], t.rows[k]);
      assert (forall i :: 0 <= i < |fs0| ==> Admits(fs0[i], t.rows[k])) <==> Admits(fs0[0], t.rows[k]);
    }
  }

  /** `reserved_by_any_of` over two host lists selects the union of what each list selects. */
  lemma ReservedByAnyOfUnion(t: Table, hs1: seq<Host>, hs2: seq<Host>)
    ensures var q := Query(t, [ReservedByAnyOf(hs1 + hs2)]);
      var q1 := Query(t, [ReservedByAnyOf(hs1)]);
      var q2 := Query(t, [ReservedByAnyOf(hs2)]);
      q.Success? && q1.Success? && q2.Success? && q.value == q1.value + q2.value
  {
    var f := [ReservedByAnyOf(hs1 + hs2)];
    var f1 := [ReservedByAnyOf(hs1)];
    var f2 := [ReservedByAnyOf(hs2)];
    forall k | k in t.rows
      ensures k in Query(t, f).value <==> k in Query(t, f1).value || k in Query(t, f2).value
    {
      var n := t.rows[k];
      assert (forall i :: 0 <= i < |f| ==> Admits(f[i], n)) <==> Admits(f[0], n);
      assert (forall i :: 0 <= i < |f1| ==> Admits(f1[i], n)) <==> Admits(f1[0], n);
      assert (forall i :: 0 <= i < |f2| ==> Admits(f2[i], n)) <==> Admits(f2[0], n);
      if n.reservation.Some? {
        assert n.reservation.value in hs1 + hs2 <==> n.reservation.value in hs1 || n.reservation.value in hs2;
      }
    }
  }

  /** An unrecognised key fails the query and is named in the error, whatever filters come with it. */
  lemma UnknownFilterNamed(t: Table, fs: seq<Filter>, key: string)
    requires WellFormed(fs) && key !in KnownKeys
    ensures var r := Query(t, fs + [Unknown(key)]);
      r.Failure? && r.error.UnsupportedFilters? && key in r.error.keys
  {
    var gs := fs + [Unknown(key)];
    assert gs[|fs|].Unknown?;
    assert gs[|fs|].key in UnknownKeys(gs);
  }

  /** Releasing all of a host's locks twice is the same as doing it once. */
  lemma ClearReservationsIdempotent(t: Table, host: Host)
    requires Valid(t)
    ensures ClearReservationsFor(ClearReservationsFor(t, host), host) == ClearReservationsFor(t, host)
  {
  }

  /** Once a node is created, another with the same uuid (and no clashing name or instance) is refused. */
  lemma CreateSameUuidRefused(t: Table, n: Node, m: Node)
    requires Valid(t) && Create(t, n).Success?
    requires m.uuid == n.uuid && m.name.None? && m.instanceUuid.None?
    ensures Create(Create(t, n).value.0, m) == Failure(NodeAlreadyExists(n.uuid))
  {
    var t' := Create(t, n).value.0;
    assert t'.rows[t.nextId].uuid == m.uuid;
  }

  /** Once a named node is created, another node with that name is refused as a duplicate. */
  lemma CreateSameNameRefused(t: Table, n: Node, m: Node)
    requires Valid(t) && Create(t, n).Success?
    requires n.name.Some? && m.name == n.name
    ensures Create(Create(t, n).value.0, m) == Failure(DuplicateName(n.name.value))
  {
    var t' := Create(t, n).value.0;
    assert t'.rows[t.nextId].name == m.name;
  }

  /** Once a node is bound to an instance, creating another node (unnamed) bound to it is refused. */
  lemma CreateSameInstanceRefused(t: Table, n: Node, m: Node)
    requires Valid(t) && Create(t, n).Success?
    requires n.instanceUuid.Some? && m.instanceUuid == n.instanceUuid && m.name.None?
    ensures Create(Create(t, n).value.0, m) == Failure(InstanceAssociated(n.instanceUuid.value, m.uuid))
  {
    var t' := Create(t, n).value.0;
    assert t'.rows[t.nextId].instanceUuid == m.instanceUuid;
  }

  /**
   * Associating an instance with a free node and then clearing it gives
   * back the table as it was.
   */
  lemma AssociateDisassociate(t: Table, ref: NodeRef, inst: string)
    requires Valid(t)
    requires Find(t, ref).Some? && t.rows[Find(t, ref).value].instanceUuid.None?
    requires !InstanceInUse(t, Some(inst), {})
    ensures Update(t, ref, SetInstance(Some(inst))).Success?
    ensures Update(Update(t, ref, SetInstance(Some(inst))).value, ref, SetInstance(None)) == Success(t)
  {
    var k := Find(t, ref).value;
    var n := t.rows[k];
    var t1 := Update(t, ref, SetInstance(Some(inst))).value;
    FindAfterRowChange(t, t1, ref, k);
    assert t1.rows == t.rows[k := n.(instanceUuid := Some(inst))];
    assert !InstanceInUse(t1, None, {k});
    assert Apply(t1.rows[k], SetInstance(None)) == n;
    assert t1.rows[k := n] == t.rows;
  }

  /** A node cannot take an instance another node is bound to; the error names the instance and the node asked for. */
  lemma InstanceClashRefused(t: Table, ref: NodeRef, other: NodeId, inst: string)
    requires Valid(t)
    requires Find(t, ref).Some? && other in t.rows && other != Find(t, ref).value
    requires t.rows[other].instanceUuid == Some(inst)
    ensures Update(t, ref, SetInstance(Some(inst)))
      == Failure(InstanceAssociated(inst, t.rows[Find(t, ref).value].uuid))
  {
  }

  /** A node cannot be renamed to a name another node carries. */
  lemma NameClashRefused(t: Table, ref: NodeRef, other: NodeId, name: string)
    requires Valid(t)
    requires Find(t, ref).Some? && other in t.rows && other != Find(t, ref).value
    requires t.rows[other].name == Some(name)
    ensures Update(t, ref, SetName(Some(name))) == Failure(DuplicateName(name))
  {
  }
}

=== FILE: rpc_service.dfy ===
/**
 * The RPC service that brings a conductor into the fleet and takes it out
 * again: `start` (prepare the host, build and start the RPC server, run
 * `init_host`, publish the manager), `wait_for_start`, the SIGUSR1 handler,
 * and `stop` (del_host, hash-ring wait, server stop, reservation drain).
 *
 * The service is a value. Each call also returns the ordered trace of the
 * externally visible things it did, so that ordering and call counts can be
 * stated. The process-wide manager slot (`GLOBAL_MANAGER`) is passed in and
 * returned explicitly.
 */
module RpcService {
  import opened Wrappers
  import opened NodeTable
  import CM = ConductorManager
  import StopTiming

  const NoTransport: string := "none"
  const JsonRpcTransport: string := "json-rpc"

  /** The identity of a manager object, as the global slot holds it. */
  type ManagerRef = nat

  /** Where the messaging transport delivers calls for this conductor. */
  datatype Target = Target(topic: string, server: string)

  datatype RpcServer =
    | WsgiService(endpoint: ManagerRef)
    | MessagingServer(target: Target, endpoints: seq<ManagerRef>)

  datatype Service = Service(
    host: Host,
    topic: string,
    managerRef: ManagerRef,
    manager: CM.Manager,
    rpcserver: Option<RpcServer>,
      /** Whether `stop` will ask `del_host` to deregister; SIGUSR1 turns it off. */
    deregister: bool,
    failure: Option<string>,
    started: bool)

  datatype Config = Config(rpcTransport: string, hashRingResetInterval: int)

  /** The externally visible steps of `start` and `stop`, in the order they happen. */
  datatype Event =
    | GetAdminContext
    | BuildSerializer
    | PrepareHost
    | BuildWsgiService
    | BuildTarget(target: Target)
    | GetServer(target: Target, endpoints: seq<ManagerRef>)
    | ServerStart
    | InstallSignalHandler
    | InitHost
    | SetGlobalManager(manager: Option<ManagerRef>)
    | DelHost(deregister: bool, clearReservations: bool)
    | Sleep(seconds: nat)
    | ServerStop
    | ServerWait
    | QueryReserved

  /** A new service: its manager is built at once, nothing is started. */
  function NewService(host: Host, confHost: Host, managerTopic: string, ref: ManagerRef, db: Table): (s: Service)
    ensures s.host == host && s.topic == managerTopic && s.managerRef == ref
    ensures s.rpcserver.None? && s.deregister && s.failure.None? && !s.started
    ensures s.manager == CM.NewManager(host, confHost, managerTopic, db)
  {
    var m := CM.NewManager(host, confHost, managerTopic, db);
    Service(host, m.topic, ref, m, None, true, None, false)
  }

  /** The SIGUSR1 handler: the next shutdown will not deregister the conductor. */
  function HandleSignal(s: Service): (r: Service)
    ensures !r.deregister
    ensures r.(deregister := s.deregister) == s
  {
    s.(deregister := false)
  }

  /** The failure text `start` records: `"<exception class>: <message>"`. */
  function FailureText(e: Exc): (t: string)
    ensures |t| == |e.className| + 2 + |e.message|
    ensures t[..|e.className|] == e.className
    ensures t[|e.className|..|e.className| + 2] == ": "
    ensures t[|t| - |e.message|..] == e.message
  {
    e.className + ": " + e.message
  }

  /** The characters of the failure text before the separator are the class name's. */
  lemma FailureTextAt(e: Exc, i: nat)
    ensures i < |e.className| ==> FailureText(e)[i] == e.className[i]
  {
  }

  /**
   * A class name holds no colon, so the failure text gives back the
   * exception it was made from: the class name ends at the first colon and
   * the message follows the separator.
   */
  lemma {:induction false} FailureTextDetermines(e1: Exc, e2: Exc)
    requires ':' !in e1.className && ':' !in e2.className
    requires FailureText(e1) == FailureText(e2)
    ensures e1 == e2
  {
    var t := FailureText(e1);
    var n1, n2 := |e1.className|, |e2.className|;
    if n1 < n2 {
      FailureTextAt(e2, n1);
      assert false;
    } else if n2 < n1 {
      FailureTextAt(e1, n2);
      assert false;
    }
    assert e1.className == t[..n1] == e2.className;
    assert e1.message == t[n1 + 2..] == e2.message;
  }

  // ---------------------------------------------------------------- start

  /**
   * What `start` finds in its environment besides the manager's own state:
   * whether `prepare_host` raised (a database error, say), what `init_host`
   * meets, and whether starting the RPC server raised.
   */
  datatype StartEnv = StartEnv(prepareHost: Outcome, init: CM.InitEnv, serverStart: Outcome)

  datatype StartResult = StartResult(svc: Service, global: Option<ManagerRef>, trace: seq<Event>, raised: Option<Exc>)

  /** The RPC server the configured transport calls for; none for "none". */
  function ServerFor(s: Service, transport: string): Option<RpcServer>
  {
    if transport == JsonRpcTransport then Some(WsgiService(s.managerRef))
    else if transport != NoTransport then Some(MessagingServer(Target(s.topic, s.host), [s.managerRef]))
    else s.rpcserver
  }

  function BuildEvents(s: Service, transport: string): seq<Event>
  {
    if transport == JsonRpcTransport then [BuildWsgiService]
    else if transport != NoTransport then
      [BuildTarget(Target(s.topic, s.host)), GetServer(Target(s.topic, s.host), [s.managerRef])]
    else []
  }

  predicate IsServerBuild(e: Event) {
    e.BuildWsgiService? || e.BuildTarget? || e.GetServer?
  }

  /** Every occurrence of `a` in the trace comes before every occurrence of `b`. */
  predicate Precedes(tr: seq<Event>, a: Event, b: Event) {
    forall i, j :: 0 <= i < |tr| && 0 <= j < |tr| && tr[i] == a && tr[j] == b ==> i < j
  }

  /** `e` occurs in the trace exactly once, at position `i`. */
  predicate OnceAt(tr: seq<Event>, e: Event, i: int) {
    && 0 <= i < |tr| && tr[i] == e
    && forall j :: 0 <= j < |tr| && tr[j] == e ==> j == i
  }

  /**
   * How far `start` got: `prepare_host` raised, its server failed to start,
   * `init_host` raised, or it completed.
   */
  datatype StartStage = PrepareFailed | ServerStartFailed | InitHostFailed | Completed

  /** The events of a `start` that got as far as `stage`. */
  function StartTrace(s: Service, transport: string, stage: StartStage): seq<Event>
  {
    var prepared := [GetAdminContext, BuildSerializer, PrepareHost];
    var built := prepared + BuildEvents(s, transport);
    var serving := if ServerFor(s, transport).Some? then built + [ServerStart] else built;
    match stage
    case PrepareFailed => prepared
    case ServerStartFailed => serving
    case InitHostFailed => serving + [InstallSignalHandler, InitHost]
    case Completed => serving + [InstallSignalHandler, InitHost, SetGlobalManager(Some(s.managerRef))]
  }

  /** Record a failed start: the failure text is set and the exception propagates. */
  function Failed(s: Service, global: Option<ManagerRef>, tr: seq<Event>, e: Exc): StartResult
  {
    StartResult(s.(failure := Some(FailureText(e))), global, tr, Some(e))
  }

  /**
   * `start`. Both flags are reset, then `_real_start` runs: build the
   * serializer, `prepare_host`, build the transport's server, start it,
   * install the signal handler, `init_host`, publish the manager. If
   * `prepare_host`, the server's start or `init_host` raises, the failure
   * text is recorded and the exception propagates; only a start that
   * returns sets `_started`. A conductor that started holds no lock:
   * `prepare_host` dropped this host's locks and a successful `init_host`
   * leaves the table alone.
   */
  function Start(s: Service, global: Option<ManagerRef>, cfg: Config, env: StartEnv): (r: StartResult)
    requires Valid(s.manager.db)
    ensures r.raised.None? <==> r.svc.started
    ensures r.raised.None? ==>
      && r.svc.failure.None? && r.global == Some(s.managerRef)
      && r.svc.manager.started && r.svc.manager.registered && r.svc.manager.online
      && r.trace == StartTrace(s, cfg.rpcTransport, Completed)
    ensures r.raised.Some? ==> r.svc.failure == Some(FailureText(r.raised.value)) && r.global == global
    ensures !(r.svc.started && r.svc.failure.Some?)
    ensures r.svc.rpcserver == if env.prepareHost.Pass? then ServerFor(s, cfg.rpcTransport) else s.rpcserver
    ensures r.svc.deregister == s.deregister && r.svc.managerRef == s.managerRef
    ensures r.svc.host == s.host && r.svc.topic == s.topic
    ensures r.svc.manager.host == s.manager.host
    ensures Valid(r.svc.manager.db)
    ensures env.prepareHost.Raise? ==> r.svc.manager == s.manager
    ensures env.prepareHost.Pass? && ServerFor(s, cfg.rpcTransport).Some? && env.serverStart.Raise? ==>
      r.svc.manager == CM.PrepareHost(s.manager)
    ensures env.prepareHost.Pass? && (ServerFor(s, cfg.rpcTransport).None? || env.serverStart.Pass?) ==>
      r.svc.manager == CM.InitHost(CM.PrepareHost(s.manager), env.init).m
    ensures r.raised.None? ==> r.svc.manager.db == CM.PrepareHost(s.manager).db && !CM.HasReserved(r.svc.manager)
  {
    var s0 := s.(failure := None, started := false);
    if env.prepareHost.Raise? then
      Failed(s0, global, StartTrace(s, cfg.rpcTransport, PrepareFailed), env.prepareHost.error)
    else
      var m1 := CM.PrepareHost(s.manager);
      var server := ServerFor(s, cfg.rpcTransport);
      var s1 := s0.(manager := m1, rpcserver := server);
      if server.Some? && env.serverStart.Raise? then
        Failed(s1, global, StartTrace(s, cfg.rpcTransport, ServerStartFailed), env.serverStart.error)
      else
        var step := CM.InitHost(m1, env.init);
        var s2 := s1.(manager := step.m);
        match step.raised
        case Some(e) => Failed(s2, global, StartTrace(s, cfg.rpcTransport, InitHostFailed), e)
        case None => StartResult(s2.(started := true), Some(s.managerRef), StartTrace(s, cfg.rpcTransport, Completed), None)
  }

  /**
   * `start` returns exactly when `prepare_host` returns, the server (if any)
   * starts, the manager is not already running, the hardware types load and
   * one is enabled, the conductor and its interfaces register, and a worker
   * is free for the keepalive.
   */
  lemma StartSucceedsIff(s: Service, global: Option<ManagerRef>, cfg: Config, env: StartEnv)
    requires Valid(s.manager.db)
    ensures Start(s, global, cfg, env).raised.None? <==>
      && env.prepareHost.Pass?
      && (ServerFor(s, cfg.rpcTransport).None? || env.serverStart.Pass?)
      && !s.manager.started
      && env.init.driverLoad.None? && |env.init.hardwareTypes| > 0 && env.init.registerFault.None?
      && env.init.interfaceFault.None? && env.init.keepaliveFree
  {
  }

  /**
   * The server `start` leaves in place on a service that had none: none if
   * `prepare_host` raised or the transport is "none", a WSGI service for
   * "json-rpc", and otherwise a messaging server on `Target(topic, host)`
   * with the manager as its only endpoint.
   */
  lemma StartServerChoice(s: Service, global: Option<ManagerRef>, cfg: Config, env: StartEnv)
    requires Valid(s.manager.db) && s.rpcserver.None?
    ensures env.prepareHost.Raise? ==> Start(s, global, cfg, env).svc.rpcserver.None?
    ensures var r := Start(s, global, cfg, env);
      env.prepareHost.Pass? ==>
      && (r.svc.rpcserver.None? <==> cfg.rpcTransport == NoTransport)
      && (cfg.rpcTransport == JsonRpcTransport ==> r.svc.rpcserver == Some(WsgiService(s.managerRef)))
      && (cfg.rpcTransport != JsonRpcTransport && cfg.rpcTransport != NoTransport ==>
            r.svc.rpcserver == Some(MessagingServer(Target(s.topic, s.host), [s.managerRef])))
  {
  }

  /**
   * Where a failed `start` stopped and what it raised: a `prepare_host` that
   * raises ends it before any server is built and leaves the manager as it
   * was; a server that fails to start ends it before `init_host`.
   */
  lemma StartFailures(s: Service, global: Option<ManagerRef>, cfg: Config, env: StartEnv)
    requires Valid(s.manager.db)
    ensures var r := Start(s, global, cfg, env);
      env.prepareHost.Raise? ==>
      && r.raised == Some(env.prepareHost.error)
      && r.trace == StartTrace(s, cfg.rpcTransport, PrepareFailed)
      && r.svc.manager == s.manager
    ensures var r := Start(s, global, cfg, env);
      env.prepareHost.Pass? && ServerFor(s, cfg.rpcTransport).Some? && env.serverStart.Raise? ==>
      && r.raised == Some(env.serverStart.error)
      && r.trace == StartTrace(s, cfg.rpcTransport, ServerStartFailed)
      && r.svc.manager.started == s.manager.started
  {
  }

  /**
   * A `start` that got as far as `init_host` and raised: `RuntimeError` for
   * a manager already running, the driver factory's error while loading the
   * hardware types, `NoDriversLoaded` when none is enabled, the error of
   * registering the conductor, the error while interfaces were registered,
   * or `NoFreeConductorWorker` when no worker was free for the keepalive;
   * where `init_host` cleans up with `del_host`, an exception from that
   * teardown takes the place of either of the last two.
   */
  lemma StartInitFailures(s: Service, global: Option<ManagerRef>, cfg: Config, env: StartEnv)
    requires Valid(s.manager.db)
    requires env.prepareHost.Pass? && (ServerFor(s, cfg.rpcTransport).None? || env.serverStart.Pass?)
    ensures var r := Start(s, global, cfg, env);
      r.raised.Some? ==> r.trace == StartTrace(s, cfg.rpcTransport, InitHostFailed)
    ensures var r := Start(s, global, cfg, env);
      var ie := env.init;
      && (s.manager.started ==> r.raised == Some(CM.AlreadyRunning))
      && (!s.manager.started && ie.driverLoad.Some? ==> r.raised == ie.driverLoad)
      && (!s.manager.started && ie.driverLoad.None? && |ie.hardwareTypes| == 0 ==>
            r.raised == Some(CM.NoDriversLoaded(s.manager.host)))
      && (!s.manager.started && ie.driverLoad.None? && |ie.hardwareTypes| > 0 && ie.registerFault.Some? ==>
            r.raised == ie.registerFault)
      && (!s.manager.started && ie.driverLoad.None? && |ie.hardwareTypes| > 0 && ie.registerFault.None?
            && ie.interfaceFault.Some? ==>
            r.raised == Some(CM.Reraised(ie.interfaceFault.value,
                                         if CM.UncaughtRegistrationError(ie) then Pass else ie.cleanupTeardown)))
      && (!s.manager.started && ie.driverLoad.None? && |ie.hardwareTypes| > 0 && ie.registerFault.None?
            && ie.interfaceFault.None? && !ie.keepaliveFree ==>
            r.raised == Some(CM.Reraised(CM.NoFreeConductorWorker, ie.cleanupTeardown)))
  {
  }

  /** `start` begins by fetching the admin context, building the serializer and running `prepare_host`, before any RPC server is built. */
  lemma StartPreparesFirst(s: Service, transport: string, stage: StartStage)
    ensures var tr := StartTrace(s, transport, stage);
      && |tr| >= 3 && tr[..3] == [GetAdminContext, BuildSerializer, PrepareHost]
      && (forall j :: 0 <= j < |tr| && IsServerBuild(tr[j]) ==> 3 <= j)
  {
  }

  /** The admin context is fetched once, the serializer is built once and `prepare_host` runs once. */
  lemma StartPreparesOnce(s: Service, transport: string, stage: StartStage)
    ensures var tr := StartTrace(s, transport, stage);
      OnceAt(tr, GetAdminContext, 0) && OnceAt(tr, BuildSerializer, 1) && OnceAt(tr, PrepareHost, 2)
  {
  }

  /** The part of `start`'s trace up to starting the server. */
  function Serving(s: Service, transport: string): seq<Event>
  {
    [GetAdminContext, BuildSerializer, PrepareHost] + BuildEvents(s, transport)
      + (if ServerFor(s, transport).Some? then [ServerStart] else [])
  }

  /** The RPC server is started before `init_host` runs. */
  lemma StartServerBeforeInit(s: Service, transport: string, stage: StartStage)
    ensures Precedes(StartTrace(s, transport, stage), ServerStart, InitHost)
  {
  }

  /**
   * `init_host` runs once, right after the signal handler is installed,
   * unless `prepare_host` raised or the server failed to start.
   */
  lemma StartInitsOnce(s: Service, transport: string, stage: StartStage)
    ensures var tr := StartTrace(s, transport, stage);
      && (stage == PrepareFailed || stage == ServerStartFailed ==> InitHost !in tr)
      && (stage == InitHostFailed || stage == Completed ==>
            OnceAt(tr, InitHost, |Serving(s, transport)| + 1) && tr[|Serving(s, transport)|] == InstallSignalHandler)
  {
  }

  /**
   * A messaging transport builds the target for this topic and host, and
   * the server on it with this manager as the only endpoint, once each,
   * unless `prepare_host` raised, in which case no server is built.
   */
  lemma StartBuildsTargetOnce(s: Service, transport: string, stage: StartStage)
    requires transport != NoTransport && transport != JsonRpcTransport
    ensures var tr := StartTrace(s, transport, stage);
      var t := Target(s.topic, s.host);
      && (stage != PrepareFailed ==> OnceAt(tr, BuildTarget(t), 3) && OnceAt(tr, GetServer(t, [s.managerRef]), 4))
      && (stage == PrepareFailed ==> forall e :: e in tr ==> !IsServerBuild(e))
  {
  }

  /**
   * The manager is published only by a start that completes, and as its
   * last step.
   */
  lemma StartPublishesLast(s: Service, transport: string, stage: StartStage)
    ensures var tr := StartTrace(s, transport, stage);
      && (SetGlobalManager(Some(s.managerRef)) in tr <==> stage == Completed)
      && (stage == Completed ==> tr[|tr| - 1] == SetGlobalManager(Some(s.managerRef)))
  {
  }

  /** With the "none" transport no RPC server is built or started. */
  lemma NoTransportBuildsNoServer(s: Service, stage: StartStage)
    requires s.rpcserver.None?
    ensures var tr := StartTrace(s, NoTransport, stage);
      && (forall e :: e in tr ==> !IsServerBuild(e))
      && ServerStart !in tr
  {
  }

  // ------------------------------------------------------- wait_for_start

  /** What `wait_for_start` sees when it looks at the service. */
  datatype Snapshot = Snapshot(started: bool, failure: Option<string>)

  function Snap(s: Service): Snapshot {
    Snapshot(s.started, s.failure)
  }

  /** Python truthiness of the failure text: set and non-empty. */
  predicate Truthy(f: Option<string>) {
    f.Some? && f.value != ""
  }

  /** The polling loop stops at a snapshot that is started or failed. */
  predicate Settled(p: Snapshot) {
    p.started || Truthy(p.failure)
  }

  /** How `wait_for_start` ends, and how many 0.1-second sleeps it took. */
  datatype WaitResult =
    | Ready(sleeps: nat)
      /** The process exits with the failure text. */
    | Exit(reason: string, sleeps: nat)
      /** Still polling after the snapshots observed so far. */
    | StillWaiting(sleeps: nat)

  /**
   * `wait_for_start` over the successive states it polls. It returns at the
   * first started snapshot, exits the process at the first failed one (a
   * recorded failure wins over `_started`), and otherwise keeps polling.
   */
  function WaitForStart(polls: seq<Snapshot>): (r: WaitResult)
    ensures r.StillWaiting? <==> forall i :: 0 <= i < |polls| ==> !Settled(polls[i])
    ensures r.StillWaiting? ==> r.sleeps == |polls|
    ensures !r.StillWaiting? ==>
      && r.sleeps < |polls| && Settled(polls[r.sleeps])
      && forall i :: 0 <= i < r.sleeps ==> !Settled(polls[i])
    ensures r.Ready? ==> polls[r.sleeps].started && !Truthy(polls[r.sleeps].failure)
    ensures r.Exit? ==> polls[r.sleeps].failure == Some(r.reason) && r.reason != ""
  {
    if polls == [] then StillWaiting(0)
    else if Truthy(polls[0].failure) then Exit(polls[0].failure.value, 0)
    else if polls[0].started then Ready(0)
    else
      match WaitForStart(polls[1..])
      case Ready(n) => Ready(n + 1)
      case Exit(t, n) => Exit(t, n + 1)
      case StillWaiting(n) => StillWaiting(n + 1)
  }

  // ----------------------------------------------------------------- stop

  /** What `stop` finds in its environment. */
  datatype StopEnv = StopEnv(
      /** The clock before and after `del_host`, in microseconds. */
    t0: int,
    t1: int,
      /** What `del_host`'s worker teardown did. */
    delHostTeardown: Outcome,
      /** What stopping the RPC server did. */
    serverStop: Outcome,
      /** The successive answers of `has_reserved` while draining. */
    reserved: seq<bool>)

  datatype StopResult = StopResult(svc: Service, global: Option<ManagerRef>, trace: seq<Event>, finished: bool)

  /** The number of `has_reserved` answers that were true before the first false one. */
  function HeldPolls(answers: seq<bool>): (n: nat)
    ensures n <= |answers|
    ensures forall i :: 0 <= i < n ==> answers[i]
    ensures n < |answers| ==> !answers[n]
  {
    if answers == [] || !answers[0] then 0 else 1 + HeldPolls(answers[1..])
  }

  /**
   * The reservation drain: ask `has_reserved`; while it says yes, sleep one
   * second and ask again. Returns the events and whether the drain ended
   * within the answers given.
   */
  function Drain(answers: seq<bool>): (r: (seq<Event>, bool))
    ensures r.1 <==> HeldPolls(answers) < |answers|
    ensures |r.0| == if r.1 then 2 * HeldPolls(answers) + 1 else 2 * |answers|
    ensures forall i :: 0 <= i < |r.0| ==> r.0[i] == if i % 2 == 0 then QueryReserved else Sleep(1)
  {
    if answers == [] then ([], false)
    else if !answers[0] then ([QueryReserved], true)
    else
      var rest := Drain(answers[1..]);
      ([QueryReserved, Sleep(1)] + rest.0, rest.1)
  }

  function WaitEvents(w: Option<nat>): seq<Event> {
    match w
    case Some(n) => [Sleep(n)]
    case None => []
  }

  /** Stopping the server, when there is one: `stop()`, then `wait()` unless `stop()` raised. */
  function ServerStopEvents(server: Option<RpcServer>, outcome: Outcome): seq<Event> {
    if server.None? then []
    else if outcome.Pass? then [ServerStop, ServerWait]
    else [ServerStop]
  }

  /** Everything `stop` does before the reservation drain. */
  function StopPrelude(s: Service, cfg: Config, env: StopEnv): seq<Event> {
    [DelHost(s.deregister, false)]
      + WaitEvents(StopTiming.HashRingWait(env.t0, env.t1, cfg.hashRingResetInterval))
      + ServerStopEvents(s.rpcserver, env.serverStop)
  }

  /** The events of `stop`: the prelude, the drain, and clearing the global manager if the drain ended. */
  function StopTrace(s: Service, cfg: Config, env: StopEnv): seq<Event>
  {
    var drain := Drain(env.reserved);
    StopPrelude(s, cfg, env) + drain.0 + (if drain.1 then [SetGlobalManager(None)] else [])
  }

  /**
   * `stop`, with the reservation drain polling `has_reserved` as the
   * service's tests require: `del_host` without clearing reservations (its
   * exceptions are logged and swallowed), the hash-ring wait, stopping the
   * server (exceptions swallowed too), the drain, and clearing the global
   * manager once the drain ends.
   */
  function Stop(s: Service, global: Option<ManagerRef>, cfg: Config, env: StopEnv): (r: StopResult)
    requires Valid(s.manager.db)
    ensures r.trace == StopTrace(s, cfg, env)
    ensures |r.trace| > 0 && r.trace[0] == DelHost(s.deregister, false)
    ensures r.svc.manager == CM.DelHost(s.manager, s.deregister, false, env.delHostTeardown).m
    ensures r.svc.manager.db == s.manager.db
    ensures r.svc == s.(manager := r.svc.manager)
    ensures var w := StopTiming.HashRingWait(env.t0, env.t1, cfg.hashRingResetInterval);
      && (w.Some? ==> |r.trace| > 1 && r.trace[1] == Sleep(w.value))
      && (w.None? && |r.trace| > 1 ==> !r.trace[1].Sleep?)
    ensures r.finished <==> false in env.reserved
    ensures r.finished ==> r.global.None? && r.trace[|r.trace| - 1] == SetGlobalManager(None)
    ensures !r.finished ==> r.global == global
  {
    var step := CM.DelHost(s.manager, s.deregister, false, env.delHostTeardown);
    var drain := Drain(env.reserved);
    StopResult(s.(manager := step.m), if drain.1 then None else global, StopTrace(s, cfg, env), drain.1)
  }

  /** How many times the drain asks `has_reserved`. */
  lemma {:induction false} DrainQueries(answers: seq<bool>)
    ensures var d := Drain(answers);
      && multiset(d.0)[QueryReserved] == (if d.1 then HeldPolls(answers) + 1 else |answers|)
      && multiset(d.0)[Sleep(1)] == HeldPolls(answers)
      && ServerStop !in d.0 && SetGlobalManager(None) !in d.0
    decreases |answers|
  {
    if answers != [] && answers[0] {
      DrainQueries(answers[1..]);
      var rest := Drain(answers[1..]);
      assert Drain(answers).0 == [QueryReserved, Sleep(1)] + rest.0;
      assert multiset([QueryReserved, Sleep(1)] + rest.0) == multiset([QueryReserved, Sleep(1)]) + multiset(rest.0);
    }
  }

  /** The drain ends within the answers exactly when one of them says no lock is held. */
  lemma {:induction false} DrainEndsAtFirstNo(answers: seq<bool>)
    ensures HeldPolls(answers) < |answers| <==> false in answers
    decreases |answers|
  {
  }

  /** Nothing before the drain asks `has_reserved` or clears the global manager. */
  lemma PreludeQuiet(s: Service, cfg: Config, env: StopEnv)
    ensures QueryReserved !in StopPrelude(s, cfg, env)
    ensures SetGlobalManager(None) !in StopPrelude(s, cfg, env)
  {
  }

  lemma StopTraceSplit(s: Service, cfg: Config, env: StopEnv)
    ensures var drain := Drain(env.reserved);
      StopTrace(s, cfg, env) == StopPrelude(s, cfg, env) + (drain.0 + (if drain.1 then [SetGlobalManager(None)] else []))
  {
  }

  /** The server is stopped before the drain starts asking `has_reserved`. */
  lemma StopServerBeforeDrain(s: Service, cfg: Config, env: StopEnv)
    ensures Precedes(StopTrace(s, cfg, env), ServerStop, QueryReserved)
  {
  }

  /**
   * A drain that ends asked `has_reserved` once per answer that still held a
   * lock, plus the final one; a drain still running asked once per answer.
   */
  lemma StopQueryCount(s: Service, cfg: Config, env: StopEnv)
    ensures multiset(StopTrace(s, cfg, env))[QueryReserved] ==
      if false in env.reserved then HeldPolls(env.reserved) + 1 else |env.reserved|
  {
    var prelude := StopPrelude(s, cfg, env);
    var drain := Drain(env.reserved);
    var tail := drain.0 + (if drain.1 then [SetGlobalManager(None)] else []);
    StopTraceSplit(s, cfg, env);
    DrainQueries(env.reserved);
    DrainEndsAtFirstNo(env.reserved);
    PreludeQuiet(s, cfg, env);
    assert multiset(prelude + tail) == multiset(prelude) + multiset(tail);
    assert multiset(tail) == multiset(drain.0) + multiset(if drain.1 then [SetGlobalManager(None)] else []);
  }

  /** The global manager is cleared exactly when the drain ends. */
  lemma StopClearsGlobalOnlyWhenDrained(s: Service, cfg: Config, env: StopEnv)
    ensures SetGlobalManager(None) in StopTrace(s, cfg, env) <==> false in env.reserved
  {
  }

  /**
   * An exception from `del_host`'s teardown is logged and swallowed: the
   * rest of `stop` does exactly what it would have done otherwise.
   */
  lemma StopIgnoresDelHostFailure(s: Service, global: Option<ManagerRef>, cfg: Config, env: StopEnv, e: Exc)
    requires Valid(s.manager.db)
    ensures var a := Stop(s, global, cfg, env.(delHostTeardown := Pass));
      var b := Stop(s, global, cfg, env.(delHostTeardown := Raise(e)));
      a.trace == b.trace && a.finished == b.finished && a.global == b.global
  {
  }

  /** An exception from stopping the RPC server is swallowed too: the drain still runs. */
  lemma StopIgnoresServerStopFailure(s: Service, cfg: Config, env: StopEnv)
    requires s.rpcserver.Some? && env.serverStop.Raise?
    ensures var tr := StopTrace(s, cfg, env);
      && ServerStop in tr && ServerWait !in tr
      && (|env.reserved| > 0 ==> QueryReserved in tr)
  {
  }

  /**
   * The reservation drain exactly as the code writes it: `while True:
   * sleep(1)`, never asking `has_reserved` and never leaving the loop.
   * `fuel` is how many iterations have run when the trace is looked at.
   */
  function LiteralDrain(fuel: nat): (r: seq<Event>)
    ensures |r| == fuel
    ensures forall e :: e in r ==> e == Sleep(1)
  {
    if fuel == 0 then [] else [Sleep(1)] + LiteralDrain(fuel - 1)
  }

  /** `stop` as written, observed after `fuel` iterations of its final loop. */
  function StopAsWritten(s: Service, global: Option<ManagerRef>, cfg: Config, env: StopEnv, fuel: nat): (r: StopResult)
    requires Valid(s.manager.db)
    ensures !r.finished && r.global == global
    ensures QueryReserved !in r.trace && SetGlobalManager(None) !in r.trace
  {
    var step := CM.DelHost(s.manager, s.deregister, false, env.delHostTeardown);
    StopResult(s.(manager := step.m), global, StopPrelude(s, cfg, env) + LiteralDrain(fuel), false)
  }
}

=== FILE: rpc_service_scenarios.dfy ===
/**
 * The service lifecycle seen across calls, and the service's unit-test
 * scenarios restated over the model: a start with a messaging transport,
 * with none, and with `init_host` raising; stops whose `del_host` took 0, 5
 * and 16 seconds against a 15-second hash-ring interval; and a stop whose
 * drain sees locks held twice before they clear.
 */
module RpcServiceScenarios {
  import opened Wrappers
  import opened NodeTable
  import CM = ConductorManager
  import HardwareInterfaces
  import StopTiming
  import opened RpcService

  // ------------------------------------------------------------ lifecycle

  /** What `wait_for_start` makes of a start: a start that returned is ready at once, a failed one exits with its text. */
  lemma WaitAfterStart(s: Service, global: Option<ManagerRef>, cfg: Config, env: StartEnv)
    requires Valid(s.manager.db)
    ensures var r := Start(s, global, cfg, env);
      && (r.raised.None? ==> WaitForStart([Snap(r.svc)]) == Ready(0))
      && (r.raised.Some? ==> WaitForStart([Snap(r.svc)]) == Exit(FailureText(r.raised.value), 0))
  {
  }

  /**
   * Starting a service whose manager is already running fails with the
   * manager's `RuntimeError`, records it, and leaves the global manager
   * alone.
   */
  lemma StartWhileRunningFails(s: Service, global: Option<ManagerRef>, cfg: Config, env: StartEnv)
    requires Valid(s.manager.db) && s.manager.started
    requires env.prepareHost.Pass? && (ServerFor(s, cfg.rpcTransport).None? || env.serverStart.Pass?)
    ensures var r := Start(s, global, cfg, env);
      && r.raised == Some(CM.AlreadyRunning)
      && r.global == global && !r.svc.started
      && r.svc.failure == Some(FailureText(CM.AlreadyRunning))
  {
  }

  /**
   * A start that completes publishes the manager; the stop that follows
   * clears it once its drain ends, after `del_host` and after the server
   * was stopped.
   */
  lemma StartThenStop(s: Service, global: Option<ManagerRef>, cfg: Config, senv: StartEnv, tenv: StopEnv)
    requires Valid(s.manager.db)
    requires Start(s, global, cfg, senv).raised.None?
    requires false in tenv.reserved && tenv.delHostTeardown.Pass?
    ensures var a := Start(s, global, cfg, senv);
      var b := Stop(a.svc, a.global, cfg, tenv);
      && a.global == Some(s.managerRef)
      && b.global.None? && b.finished
      && !b.svc.manager.started
      && b.svc.manager.shutdown == Some(true)
      && Precedes(b.trace, ServerStop, QueryReserved)
  {
  }

  /** A stop of a running, registered manager stops it and marks it shut down. */
  lemma StopAfterStart(svc: Service, global: Option<ManagerRef>, cfg: Config, tenv: StopEnv)
    requires Valid(svc.manager.db) && svc.manager.registered
    requires tenv.delHostTeardown.Pass?
    ensures var b := Stop(svc, global, cfg, tenv);
      && !b.svc.manager.started && b.svc.manager.shutdown == Some(true)
  {
  }

  /**
   * After SIGUSR1 the next stop calls `del_host` without deregistering, so
   * the conductor record stays online; without the signal it goes offline.
   */
  lemma SignalKeepsRegistration(s: Service, global: Option<ManagerRef>, cfg: Config, env: StopEnv)
    requires Valid(s.manager.db) && s.manager.registered
    ensures var r := Stop(HandleSignal(s), global, cfg, env);
      r.trace[0] == DelHost(false, false) && r.svc.manager.online == s.manager.online
    ensures s.deregister ==>
      var r := Stop(s, global, cfg, env);
      r.trace[0] == DelHost(true, false) && !r.svc.manager.online
  {
  }

  /**
   * A new service whose manager loads its hardware types, registers its
   * interfaces and gets a keepalive worker starts exactly when some hardware
   * type is enabled. It then publishes its manager, which has registered the
   * interface rows of those types; otherwise `NoDriversLoaded` is recorded
   * and the global manager is left alone.
   */
  lemma FreshServiceStarts(host: Host, confHost: Host, topic: string, ref: ManagerRef, db: Table,
                           global: Option<ManagerRef>, cfg: Config, hts: seq<HardwareInterfaces.HardwareType>)
    requires Valid(db)
    ensures var s := NewService(host, confHost, topic, ref, db);
      var r := Start(s, global, cfg, StartEnv(Pass, CM.InitEnv(hts, None, None, None, true, Pass), Pass));
      && (r.raised.None? <==> |hts| > 0)
      && (|hts| > 0 ==>
            && r.global == Some(ref) && r.svc.started
            && r.svc.manager.interfaces == HardwareInterfaces.InterfaceRows(hts))
      && (|hts| == 0 ==>
            && r.raised == Some(CM.NoDriversLoaded(if host == "" then confHost else host))
            && r.global == global && !r.svc.started)
  {
  }

  // ------------------------------------------------------------ the tests

  const FakeHost: Host := "fake_host"
  const ManagerTopic: string := "ironic.conductor_manager"
  const Ipmi: HardwareInterfaces.HardwareType :=
    HardwareInterfaces.HardwareType("ipmi", [HardwareInterfaces.InterfaceSpec("power", ["ipmitool"], "ipmitool")])

  function FakeService(): Service {
    NewService(FakeHost, "conf_host", ManagerTopic, 1, EmptyTable)
  }

  /** The number of times `e` occurs in `tr`. */
  function Count(tr: seq<Event>, e: Event): nat {
    multiset(tr)[e]
  }

  const StartOk: StartEnv := StartEnv(Pass, CM.InitEnv([Ipmi], None, None, None, true, Pass), Pass)

  /**
   * A start over a messaging transport returns, publishes the manager, and
   * `wait_for_start` returns at once.
   */
  lemma TestStart()
    ensures var s := FakeService();
      var r := Start(s, None, Config("oslo", 15), StartOk);
      && r.raised.None? && r.svc.started && r.svc.failure.None?
      && r.global == Some(s.managerRef)
      && r.trace == StartTrace(s, "oslo", Completed)
      && WaitForStart([Snap(r.svc)]) == Ready(0)
  {
  }

  /**
   * That start fetches the admin context once, builds the target for this
   * host once, and builds the serializer and runs `prepare_host` and
   * `init_host` once each.
   */
  lemma TestStartCalls()
    ensures var tr := StartTrace(FakeService(), "oslo", Completed);
      && OnceAt(tr, GetAdminContext, 0)
      && OnceAt(tr, BuildTarget(Target(ManagerTopic, FakeHost)), 3)
      && OnceAt(tr, BuildSerializer, 1)
      && OnceAt(tr, PrepareHost, 2)
      && OnceAt(tr, InitHost, 7)
  {
  }

  /** With the "none" transport no server is built, and the manager is still published. */
  lemma TestStartNoRpc()
    ensures var s := FakeService();
      var r := Start(s, None, Config(NoTransport, 15), StartEnv(Pass, CM.InitEnv([Ipmi], None, None, None, true, Pass), Pass));
      && r.raised.None? && r.svc.rpcserver.None?
      && (forall e :: e in r.trace ==> !e.BuildTarget? && !e.GetServer?)
      && OnceAt(r.trace, GetAdminContext, 0)
      && OnceAt(r.trace, BuildSerializer, 1)
      && OnceAt(r.trace, PrepareHost, 2)
      && OnceAt(r.trace, InitHost, 4)
      && r.global == Some(s.managerRef)
  {
  }

  /**
   * `init_host` raising `RuntimeError("boom")` (here at its first step that
   * can raise, before anything is registered) propagates out of start; the
   * global manager stays unset, the service is not started, the failure
   * text holds "boom", and `wait_for_start` exits with it.
   */
  lemma TestStartFailure()
    ensures var s := FakeService();
      var boom := Exc("RuntimeError", "boom");
      var r := Start(s, None, Config("oslo", 15), StartEnv(Pass, CM.InitEnv([Ipmi], Some(boom), None, None, true, Pass), Pass));
      && r.raised == Some(boom)
      && r.global.None? && !r.svc.started
      && r.svc.failure == Some(FailureText(boom))
      && r.trace == StartTrace(s, "oslo", InitHostFailed)
      && WaitForStart([Snap(r.svc)]) == Exit(FailureText(boom), 0)
  {
  }

  /**
   * That failed start fetched the admin context, built the serializer, ran
   * `prepare_host`, built the target for this host and ran `init_host`
   * exactly once each, and never published the manager.
   */
  lemma TestStartFailureCalls()
    ensures var tr := StartTrace(FakeService(), "oslo", InitHostFailed);
      && OnceAt(tr, GetAdminContext, 0)
      && OnceAt(tr, BuildSerializer, 1)
      && OnceAt(tr, PrepareHost, 2)
      && OnceAt(tr, BuildTarget(Target(ManagerTopic, FakeHost)), 3)
      && OnceAt(tr, InitHost, 7)
      && SetGlobalManager(Some(1)) !in tr
  {
  }

  /** The failure text of the test's exception holds its message, after the class name. */
  lemma BoomText()
    ensures FailureText(Exc("RuntimeError", "boom")) == "RuntimeError: boom"
  {
  }

  /** 21:10:00 on some day, in microseconds: the clock reading before `del_host`. */
  const T0: int := 76_200 * StopTiming.MicrosPerSecond

  function StopAfter(seconds: int, reserved: seq<bool>): StopResult
  {
    Stop(FakeService(), Some(1), Config("oslo", 15),
         StopEnv(T0, T0 + seconds * StopTiming.MicrosPerSecond, Pass, Pass, reserved))
  }

  /** `del_host` returned at once: the whole 15 seconds are slept, then one query. */
  lemma TestStopInstant()
    ensures var r := StopAfter(0, [false]);
      && r.trace == [DelHost(true, false), Sleep(15), QueryReserved, SetGlobalManager(None)]
      && r.finished && r.global.None?
  {
  }

  /** `del_host` took 5 seconds: the remaining 10 are slept, then one query. */
  lemma TestStop()
    ensures var r := StopAfter(5, [false]);
      && r.trace == [DelHost(true, false), Sleep(10), QueryReserved, SetGlobalManager(None)]
      && r.finished
  {
  }

  /** `del_host` took 16 seconds: no sleep at all, then one query. */
  lemma TestStopSlow()
    ensures var r := StopAfter(16, [false]);
      && r.trace == [DelHost(true, false), QueryReserved, SetGlobalManager(None)]
      && (forall e :: e in r.trace ==> !e.Sleep?)
      && r.finished
  {
  }

  /**
   * Locks still held on the first two polls: the remaining 10 seconds are
   * slept, then one second after each of those polls, and `has_reserved`
   * is asked three times.
   */
  lemma TestStopHasReserved()
    ensures var r := StopAfter(5, [true, true, false]);
      && r.trace == HasReservedTrace
      && Count(r.trace, QueryReserved) == 3
      && r.finished
  {
    var env := StopEnv(T0, T0 + 5 * StopTiming.MicrosPerSecond, Pass, Pass, [true, true, false]);
    HasReservedStopTrace();
    StopQueryCount(FakeService(), Config("oslo", 15), env);
    assert HeldPolls([true, true, false]) == 2 by {
      assert [true, true, false][1..] == [true, false];
      assert [true, false][1..] == [false];
    }
  }

  const HasReservedTrace: seq<Event> :=
    [DelHost(true, false), Sleep(10), QueryReserved, Sleep(1), QueryReserved, Sleep(1), QueryReserved, SetGlobalManager(None)]

  lemma HasReservedStopTrace()
    ensures StopTrace(FakeService(), Config("oslo", 15),
                      StopEnv(T0, T0 + 5 * StopTiming.MicrosPerSecond, Pass, Pass, [true, true, false])) == HasReservedTrace
  {
  }

  // -------------------------------------------------------------- finding

  /**
   * The drain as written never asks `has_reserved` and never ends, however
   * long it runs, even when no lock is held; the drain the tests require
   * ends after a single query in the same situation.
   */
  lemma LiteralDrainNeverEnds(fuel: nat)
    ensures var env := StopEnv(T0, T0 + 5 * StopTiming.MicrosPerSecond, Pass, Pass, [false]);
      var written := StopAsWritten(FakeService(), Some(1), Config("oslo", 15), env, fuel);
      var intended := Stop(FakeService(), Some(1), Config("oslo", 15), env);
      && !written.finished && written.global == Some(1)
      && QueryReserved !in written.trace
      && intended.finished && intended.global.None?
      && Count(intended.trace, QueryReserved) == 1
  {
  }
}

=== FILE: stop_timing.dfy ===
/**
 * The hash-ring wait of the service's `stop`: after `del_host` returns, the
 * service sleeps out what is left of `hash_ring_reset_interval`, measured
 * from the moment before `del_host` was called.
 *
 * Timestamps are integer microseconds. The remaining time is a Python
 * `timedelta`, and the sleep is its `.seconds` attribute: the whole seconds
 * of the normalised delta, which wraps modulo one day.
 */
module StopTiming {
  import opened Wrappers

  const MicrosPerSecond: int := 1_000_000
  const SecondsPerDay: int := 86400

  /**
   * `d` microseconds are `days` whole days plus `s` whole seconds plus less
   * than one second: the normal form of a Python `timedelta`.
   */
  predicate SplitsAs(d: int, days: int, s: int) {
    (days * SecondsPerDay + s) * MicrosPerSecond <= d < (days * SecondsPerDay + s + 1) * MicrosPerSecond
  }

  /** `timedelta(microseconds=d).seconds`: the seconds part of the normal form, whatever the days part. */
  function TimedeltaSeconds(d: int): (s: int)
    ensures 0 <= s < SecondsPerDay
    ensures exists days :: SplitsAs(d, days, s)
    ensures 0 <= d < SecondsPerDay * MicrosPerSecond ==>
      s * MicrosPerSecond <= d < (s + 1) * MicrosPerSecond
  {
    var secs := d / MicrosPerSecond;
    var s := secs % SecondsPerDay;
    assert SplitsAs(d, secs / SecondsPerDay, s);
    s
  }

  /**
   * The normal form is unique: any split of `d` into whole days and a
   * seconds part within one day has `.seconds` as that part.
   */
  lemma {:induction false} TimedeltaSecondsUnique(d: int, days: int, s: int)
    requires 0 <= s < SecondsPerDay && SplitsAs(d, days, s)
    ensures TimedeltaSeconds(d) == s
  {
    var n := days * SecondsPerDay + s;
    assert d / MicrosPerSecond == n;
    assert n % SecondsPerDay == s;
  }

  /**
   * The sleep `stop` performs between `del_host` and stopping the server:
   * none at all unless `t1` (after `del_host`) is still before `t0` (before
   * it) plus the interval; otherwise the whole seconds of the remainder.
   */
  function HashRingWait(t0: int, t1: int, intervalSeconds: int): (w: Option<nat>)
    ensures w.Some? <==> t1 < t0 + intervalSeconds * MicrosPerSecond
    ensures w.Some? ==> w.value < SecondsPerDay
  {
    var extendTime := t0 + intervalSeconds * MicrosPerSecond;
    if t1 < extendTime then
      var s := TimedeltaSeconds(extendTime - t1);
      Some(if s < 0 then 0 else s)
    else
      None
  }

  /**
   * When less than a day remains, the elapsed time plus the sleep never
   * overshoots the interval and falls short of it by less than one second:
   * only the sub-second part of the remainder is dropped.
   */
  lemma WaitCompletesInterval(t0: int, t1: int, intervalSeconds: int)
    requires t1 < t0 + intervalSeconds * MicrosPerSecond < t1 + SecondsPerDay * MicrosPerSecond
    ensures HashRingWait(t0, t1, intervalSeconds).Some?
    ensures var w := HashRingWait(t0, t1, intervalSeconds).value;
      && (t1 - t0) + w * MicrosPerSecond <= intervalSeconds * MicrosPerSecond
      && (t1 - t0) + w * MicrosPerSecond > (intervalSeconds - 1) * MicrosPerSecond
  {
  }

  /** What is left of the interval after `del_host`, in microseconds. */
  function Remaining(t0: int, t1: int, intervalSeconds: int): int {
    t0 + intervalSeconds * MicrosPerSecond - t1
  }

  /**
   * Whatever remains, the sleep is the remainder's whole seconds with whole
   * days dropped: some number of days plus the sleep plus under a second.
   */
  lemma WaitDropsWholeDays(t0: int, t1: int, intervalSeconds: int)
    requires t1 < t0 + intervalSeconds * MicrosPerSecond
    ensures HashRingWait(t0, t1, intervalSeconds).Some?
    ensures var w := HashRingWait(t0, t1, intervalSeconds).value;
      exists days :: days >= 0 && SplitsAs(Remaining(t0, t1, intervalSeconds), days, w)
  {
    var d := Remaining(t0, t1, intervalSeconds);
    var w := TimedeltaSeconds(d);
    var days :| SplitsAs(d, days, w);
    assert days >= 0;
  }

  /** A `del_host` that took exactly the interval leaves nothing to sleep. */
  lemma NoWaitAtExactInterval(t0: int, intervalSeconds: int)
    ensures HashRingWait(t0, t0 + intervalSeconds * MicrosPerSecond, intervalSeconds).None?
  {
  }

  /**
   * An interval of a whole day with an instant `del_host` sleeps zero
   * seconds: `.seconds` drops the day component of the remainder.
   */
  lemma WaitWrapsAtOneDay(t0: int)
    ensures HashRingWait(t0, t0, SecondsPerDay) == Some(0)
  {
  }

  /**
   * An interval of one day and `k` seconds with an instant `del_host` sleeps
   * `k` seconds, not the whole interval.
   */
  lemma WaitPastOneDay(t0: int, k: int)
    requires 0 <= k < SecondsPerDay
    ensures HashRingWait(t0, t0, SecondsPerDay + k) == Some(k)
  {
    TimedeltaSecondsUnique((SecondsPerDay + k) * MicrosPerSecond, 1, k);
  }
}

=== FILE: wrappers.dfy ===
/** Small failure-carrying datatypes shared by every module of the model. */
module Wrappers {

  /** A value that may be absent; stands for Python's `None`. */
  datatype Option<+T> = None | Some(value: T)

  /** Either a value or the error a call raised. */
  datatype Result<+R, +E> = Success(value: R) | Failure(error: E)

  /** An exception as Python reports it: its class name and its `str()`. */
  datatype Exc = Exc(className: string, message: string)

  /** What an external collaborator did when called: returned, or raised `error`. */
  datatype Outcome = Pass | Raise(error: Exc)
}
